=== FILE: README.md ===
# KWin Xwayland supervisor, selection bridge, input panel and virtual keyboard in Dafny

This project models five small pieces of KWin, the KDE Wayland compositor, and proves
properties of each model.

- **The Xwayland supervisor** (`xwl/xwayland.cpp`) starts the Xwayland X server and opens the
  X11 connection once Xwayland reports its display. It creates the selection bridge, dispatches
  X11 events, and tears everything down in a fixed order when Xwayland stops or crashes. When
  Xwayland fails to start it only reports `criticalError(1)` and leaves the process in place.
- **The selection bridge** (`xwl/databridge.cpp`, `xwl/databridge.h`) routes X11 events to the
  clipboard and drag-and-drop channels. It adopts the compositor's internal data device at most
  once: the first one announced, if any is.
- **The input panel** (`inputpanelv1client.cpp`, `inputpanelv1client.h`) is the window that
  shows a virtual keyboard. It is centred at the bottom of its output (Toplevel mode) or placed
  over the focused text field (Overlay mode), and it can be hidden and shown.
- **The virtual keyboard** (`virtualkeyboard.cpp`) is switched on and off, and forwards what the
  input method produced to the focused text input as a commit or a pre-edit. It answers input
  method queries, translating the text input's content hints and purpose into Qt input method
  hints. It also remembers which client last got a keyboard geometry.

The model is functional. Every piece of state is an immutable datatype. Every slot or method of
the source is a pure function. It returns the next state together with a trace: the sequence of
signals it emitted and the requests it made of its collaborators. What the operating system,
xcb or Qt answers becomes a parameter. Examples are whether `pipe()` succeeded, the screen
`xcb_connect_to_fd` returned, and the line read from the display pipe.

Modules:

- `Wrappers` (`wrappers.dfy`): `Option`.
- `DataBridge` (`databridge.dfy`): the selection bridge. The clipboard and drag-and-drop channels
  are opaque: each is a predicate saying which X11 events it claims, plus the answer it gives
  during a drag.
- `Xwayland` (`xwayland.dfy`): the supervisor and the X11 members of the compositor
  application it sets and clears.
- `XwaylandSession` (`xwayland_session.dfy`): whole sessions. It drives the supervisor with any
  sequence of operations, Xwayland process signals and data device announcements, and proves
  an invariant and the consistency of the connection signals across any such run.
- `InputPanel` (`inputpanel.dfy`): panel placement and visibility.
- `VirtualKeyboard` (`virtualkeyboard.dfy`): on/off, commit versus pre-edit, query answers,
  the hint mapping and its bit mask, and the tracked-client swap.

Where the code and its description disagree, the model follows the code:

- `readDisplay` removes the last byte of the line unconditionally; it does not strip a newline.
  A line without a newline therefore loses a digit. An empty read gives an empty display.
- `start` treats only exactly -1 from `createXWaylandConnection` as failure; other negative
  values pass on to `dup`.

One behaviour of the code is shown by a lemma rather than corrected:

- `handleXwaylandStarted` is not tied to the process that started. Suppose Xwayland dies while
  its display is being read. Then `stop` runs first, and the late `continueStartupWithX` still
  reaches `createX11Connection` with no check for a process. That calls `xcb_connect_to_fd` on
  the descriptor `stop` left behind (xwl/xwayland.cpp:275, 311). With no X server at the other
  end, the real call fails or blocks rather than yielding a working connection. The model takes
  the connect's answer as a parameter. `XwaylandSession.LateDisplayReadyLeavesOrphanConnection`
  shows what follows if it does return a screen. A connection opens that no process backs.
  Once it breaks, `dispatchEvents` hands it to `stop`, which returns at once because there is
  no process. The session invariant is therefore proved for runs in which the display-ready
  signal arrives while its process exists and no connection does.

## Model

Some members are definitions that the listed lemmas are about and have no row of their own.
`VirtualKeyboard.ContentHintFlags`, `VirtualKeyboard.PurposeHints` and `VirtualKeyboard.QtHints`
(virtualkeyboard.cpp:395-467) are covered by the `...MatchOrigin` lemmas. The accessors
`DataBridge.GetDataDevice`, `DataBridge.GetDataDeviceIface` and `DataBridge.GetDnd`
(xwl/databridge.h:69-80) are covered by `DataBridge.AccessorsAfterConstruction`.
`XwaylandSession.MarkProcess`, which records the state QProcess reports with a signal, is
covered by the session lemmas that use it.

| member | source | states |
|---|---|---|
| DataBridge.Construct | xwl/databridge.h:87-92 | a new bridge holds the internal data device and has no clipboard channel, no dnd channel and no data device interface |
| DataBridge.Init | xwl/databridge.cpp:90-95 | afterwards the clipboard channel exists on the CLIPBOARD atom and the dnd channel on XdndSelection; the data device and its interface are untouched |
| DataBridge.OnDataDeviceCreated | xwl/databridge.cpp:68-79 | the latch ignores the device when one was already adopted or when the device's client is not the internal connection; otherwise it adopts the device and creates both channels; a valid bridge stays valid |
| DataBridge.DeliverAll | xwl/databridge.cpp:67-82 | any sequence of dataDeviceCreated notifications keeps the bridge valid: channels exist exactly when a device interface has been adopted |
| DataBridge.DeliverAllAdoptsFirstInternal | xwl/databridge.cpp:69-77 | after any sequence of notifications, the adopted interface is the first one owned by the internal client, and an already adopted one is kept |
| DataBridge.AdoptedDeviceIsStable | xwl/databridge.cpp:69-75 | once a device interface is adopted, further notifications change nothing, so it is assigned at most once |
| DataBridge.DeliverAllKeepsDevice | xwl/databridge.cpp:61-82 | the internal data device obtained by the constructor survives every notification |
| DataBridge.FilterEvent | xwl/databridge.cpp:97-106 | an event is consumed iff the clipboard claims it or the dnd channel claims it; the clipboard is asked first, and when it claims the event the dnd channel is not asked; with no channel, nothing is consumed |
| DataBridge.DragMoveFilter | xwl/databridge.cpp:108-114 | the reply is Wayland without a dnd channel and the dnd channel's reply otherwise |
| DataBridge.AccessorsAfterConstruction | xwl/databridge.h:69-80 | after construction, dataDevice is the device obtained, dataDeviceIface is the first internal device announced, and dnd exists iff such a device was announced |
| DataBridge.UnregisteredBridgeIsInert | xwl/databridge.cpp:97-114 | a bridge that never adopted a device consumes no X11 event and answers Wayland to every drag |
| Xwayland.ReadDisplay | xwl/xwayland.cpp:57-60 | the display has the length of the line read, starts with ':' and continues with the line minus its last byte; an empty read gives an empty display |
| Xwayland.ReadDisplayStripsNewline | xwl/xwayland.cpp:57-60 | a display number followed by a newline becomes ':' and that number |
| Xwayland.ReadDisplayOfOne | xwl/xwayland.cpp:57-60 | "1\n" becomes ":1" |
| Xwayland.Start | xwl/xwayland.cpp:99-154 | any failed setup step emits one criticalError and changes nothing; the code is 20 iff a dup failed, and 1 iff the pipe, the socket pair or the Wayland socket failed; on success a Starting process runs the program Xwayland with exactly the arguments -displayfd, the pipe's write end, -rootless, -wm and the duplicated socket, and an environment of WAYLAND_SOCKET set to the duplicated Wayland socket and EGL_PLATFORM set to DRM; the read ends are kept, and the write end is closed after the launch |
| Xwayland.CreateX11Connection | xwl/xwayland.cpp:273-296 | a failed connect changes nothing and emits nothing; otherwise the connection, default screen, screen number 0, root window, atoms, event filter and notifier are all in place before the single x11ConnectionChanged, which comes last |
| Xwayland.DestroyX11Connection | xwl/xwayland.cpp:298-319 | without a connection nothing happens; otherwise aboutToBeDestroyed is first and x11ConnectionChanged last, and the connection, default screen, screen number (-1), root window (none) and descriptor (-1) are reset |
| Xwayland.DestroyTraceIsTeardown | xwl/xwayland.cpp:300-318 | destroying a connection emits only teardown events, with aboutToBeDestroyed and the closing x11ConnectionChanged once each |
| Xwayland.Stop | xwl/xwayland.cpp:156-183 | without a process nothing happens; otherwise the process, the bridge, DataBridge::self() and the connection are all gone afterwards, the notifier is uninstalled first, and Xwayland's Wayland connection is destroyed last, right after the process is dropped |
| Xwayland.StopIsPhaseOrdered | xwl/xwayland.cpp:164-182 | stop's events follow the fixed order: notifier, bridge, X11 connection teardown, termination, process, Wayland connection |
| Xwayland.StopSteps | xwl/xwayland.cpp:164-182 | stop drops a bridge iff there is one, tears the connection down iff there is one, and terminates the process iff it is not NotRunning |
| Xwayland.StopIsIdempotent | xwl/xwayland.cpp:158-160 | a second stop changes nothing and emits nothing |
| Xwayland.Drain | xwl/xwayland.cpp:200-207 | every pending X11 event is handed to the native event filters, in arrival order, and the connection is flushed once afterwards |
| Xwayland.DispatchEvents | xwl/xwayland.cpp:185-208 | without a connection nothing happens; a connection in error is handled exactly as stop; otherwise the state is unchanged, every pending event is dispatched in order and then the output is flushed |
| Xwayland.HandleXwaylandFinished | xwl/xwayland.cpp:240-248 | whatever the exit code, the process, the bridge and the connection are gone and Xwayland's Wayland connection is destroyed last |
| Xwayland.HandleXwaylandError | xwl/xwayland.cpp:250-271 | the state never changes; criticalError(1) is emitted iff the error is FailedToStart, and nothing is emitted for any other error |
| Xwayland.NewBridge | xwl/databridge.cpp:54-83 | the bridge created at startup is valid |
| Xwayland.ContinueStartupWithX | xwl/xwayland.cpp:321-344 | without a connection afterwards, criticalError(1) is emitted and no bridge is created; otherwise a bridge exists and is what DataBridge::self() answers, DISPLAY (or "" when unset) is copied into the startup environment, no criticalError is emitted, and started is followed only by the sync |
| Xwayland.HandleXwaylandStarted | xwl/xwayland.cpp:50-67 | if the display pipe cannot be opened the compositor exits with status 1 and nothing else happens; otherwise DISPLAY becomes the transformed line, the pipe is closed before startup continues, and the startup environment receives that display |
| Xwayland.Initial | xwl/xwayland.cpp:80-84 | a newly constructed supervisor has no process, no bridge and no X11 connection |
| Xwayland.DragMoveFilter | xwl/xwayland.cpp:346-352 | the reply is Wayland without a bridge and the bridge's reply otherwise |
| XwaylandSession.InitialIsValid | xwl/xwayland.cpp:81-86 | the supervisor before start satisfies the invariant: no connection without a process, no bridge without a connection, DataBridge::self() is the live bridge, and the notifier is installed only with a connection |
| XwaylandSession.StepPreservesInv | xwl/xwayland.cpp:99-344 | every operation and process signal preserves the invariant, provided the display-ready signal arrives while its process exists and before a connection does |
| XwaylandSession.StopSignals | xwl/xwayland.cpp:156-183 | the connection signals of one stop are the aboutToBeDestroyed/x11ConnectionChanged pair exactly when a connection existed, and none otherwise |
| XwaylandSession.DestroySignals | xwl/xwayland.cpp:298-319 | destroying a connection emits aboutToBeDestroyed then x11ConnectionChanged, and nothing without a connection |
| XwaylandSession.StartedSignals | xwl/xwayland.cpp:321-344 | the display-ready path emits exactly one x11ConnectionChanged when a connection is opened, and none otherwise |
| XwaylandSession.StartSignals | xwl/xwayland.cpp:99-154 | start emits no connection signal |
| XwaylandSession.DispatchSignals | xwl/xwayland.cpp:185-208 | dispatching emits connection signals only through the stop it triggers on a broken connection |
| XwaylandSession.ErrorSignals | xwl/xwayland.cpp:250-271 | process errors emit no connection signal |
| XwaylandSession.StepSignals | xwl/xwayland.cpp:99-344 | replaying the connection signals of one operation, from whether a connection existed before, gives whether one exists after |
| XwaylandSession.RunKeepsInvAndSignalOrder | xwl/xwayland.cpp:99-344 | across any run of operations and process signals the invariant holds, and the connection signals tell the connection's life in order: each opening is one x11ConnectionChanged while disconnected, each teardown is aboutToBeDestroyed immediately followed by x11ConnectionChanged while connected, and the story ends in the run's final connection state |
| XwaylandSession.SpawnFailureScenario | xwl/xwayland.cpp:250-256 | when Xwayland fails to spawn after a successful start, criticalError(1) is emitted, and neither a connection nor a bridge appears |
| XwaylandSession.StopTwiceWithoutProcessScenario | xwl/xwayland.cpp:158-160 | stopping a supervisor that never started, twice, changes nothing and emits nothing |
| XwaylandSession.CrashAfterSessionScenario | xwl/xwayland.cpp:240-248 | a crash after a connected session leaves no process, no connection and no bridge, and its connection signals are exactly aboutToBeDestroyed then x11ConnectionChanged |
| XwaylandSession.DeviceCreated | xwl/databridge.cpp:67-80 | a data device announced after construction reaches the live bridge's handler, which stays connected until it adopts the internal device; the bridge and DataBridge::self() both become the handler's result, nothing else changes, nothing is signalled, and without a bridge nothing happens |
| XwaylandSession.LateInternalDeviceIsAdopted | xwl/databridge.cpp:67-80 | when the internal device is announced after the bridge was built, it is adopted, the invariant still holds, drags are answered by the new dnd channel, and any later announcement changes nothing |
| XwaylandSession.DragBeforeConnection | xwl/xwayland.cpp:346-352 | under the invariant, a drag is answered Wayland before the X11 connection exists, and also while the bridge has not adopted the internal data device |
| XwaylandSession.LateDisplayReadyLeavesOrphanConnection | xwl/xwayland.cpp:232-238 | a display-ready signal arriving after stop reaches createX11Connection with no process check; if the foreign connect then returns a screen, a connection opens that no process backs, which breaks the invariant, and once broken it is never torn down by dispatchEvents |
| InputPanel.CDiv | inputpanelv1client.cpp:78 | C++ integer division by a positive divisor truncates toward zero: the quotient of a non-negative number is its floor, that of a negative number its ceiling |
| InputPanel.New | inputpanelv1client.h:82-84 | a new panel is in Toplevel mode, visible, not a zombie, and on no output, hence shown |
| InputPanel.SetFrameGeometry | inputpanelv1client.cpp:91-106 | an unchanged rectangle changes nothing and emits nothing; a new one becomes both frame and client geometry, with frame, client and buffer geometry changes signalled in that order |
| InputPanel.Reposition | inputpanelv1client.cpp:67-89 | only the geometry changes. A Toplevel panel with an output and a valid, non-empty surface size takes that size, sits on the output's bottom edge, and is offset from the output's left edge by half the spare width truncated toward zero, so it is centred to within one pixel; without an output or with a bad size nothing happens. An Overlay panel goes to the focused field's position with the surface size; without a focused field nothing happens. Whenever the panel is placed, the result is setFrameGeometry's, so its signals are emitted only for a new rectangle |
| InputPanel.ToplevelMargins | inputpanelv1client.cpp:77-78 | on an output at least as wide as the panel, the right margin equals the left margin or exceeds it by one pixel |
| InputPanel.RepositionIsIdempotent | inputpanelv1client.cpp:67-106 | repositioning again moves nothing and emits nothing |
| InputPanel.ShowOverlayPanel | inputpanelv1client.cpp:52-57 | the panel is in Overlay mode on no output afterwards, with visibility and size kept; with a focused text field its frame is at the field's position with the surface size, and without one it stays where it was and nothing is signalled |
| InputPanel.ShowTopLevel | inputpanelv1client.cpp:59-65 | the panel is in Toplevel mode on the given output afterwards, the requested position plays no part, and with a usable size the frame is bottom-centred on that output |
| InputPanel.SurfaceSizeChanged | inputpanelv1client.cpp:44 | a surface resize keeps the mode and output; a Toplevel panel on an output with a usable new size ends up bottom-centred with that size, and an Overlay panel with a focused field sits at the field with the new size |
| InputPanel.OutputGeometryChanged | inputpanelv1client.cpp:151-160 | a geometry change of the panel's output re-centres a Toplevel panel on the new geometry; a panel on no output is untouched |
| InputPanel.HideClient | inputpanelv1client.cpp:131-143 | visibility becomes the negation of the request, and the panel is shown iff it was asked to show and is not a zombie; hiding emits only windowHidden; showing repositions the panel exactly as reposition would and emits reposition's signals followed by the single windowShown; mode, output, surface size and zombie state are kept in both cases |
| InputPanel.HideThenShow | inputpanelv1client.cpp:131-143 | hiding and showing again leaves the panel visible and placed as a reposition places it |
| InputPanel.DestroyClient | inputpanelv1client.cpp:108-119 | a destroyed panel is a zombie, is no longer shown, and is otherwise unchanged |
| InputPanel.PanelQueries | inputpanelv1client.h:45-69 | shown iff not hidden and not a zombie; the buffer geometry is the frame; the window type is Utility whatever is asked; the panel is never closeable, resizable or movable, never takes focus or input, and is an input method |
| VirtualKeyboard.Initial | virtualkeyboard.cpp:50-60 | the constructed keyboard is disabled and tracks no client |
| VirtualKeyboard.Init | virtualkeyboard.cpp:64-77 | as a Wayland server the keyboard starts enabled iff no alphanumeric keyboard is attached; otherwise init leaves it as it was; nothing but the flag changes |
| VirtualKeyboard.SetEnabled | virtualkeyboard.cpp:201-219 | the flag ends at the requested value, nothing else changes, nothing is emitted iff the value was already set, and otherwise the queries are refreshed before enabledChanged and the on-screen display notification |
| VirtualKeyboard.SetEnabledIsIdempotent | virtualkeyboard.cpp:203-205 | a second call with the same value changes nothing and emits nothing |
| VirtualKeyboard.ToggleTwiceRestores | virtualkeyboard.cpp:201-219 | switching and switching back restores the keyboard, announcing each change |
| VirtualKeyboard.InputMethod | virtualkeyboard.cpp:325-350 | nothing is sent iff the keyboard is disabled, there is no Wayland server, or the focused text input is missing or disabled; a plain commit of the commit string is sent iff in addition no attribute marks a pre-edit, the pre-edit string is empty and the commit string is not; otherwise a pre-edit carrying both strings is sent |
| VirtualKeyboard.DeliveryKeepsText | virtualkeyboard.cpp:343-347 | whenever something is sent the commit string arrives intact, and a non-empty pre-edit string is never dropped |
| VirtualKeyboard.HandleInputMethod | virtualkeyboard.cpp:328-348 | the attribute scan sets the pre-edit flag iff some attribute is a text format, cursor, language or ruby attribute, and the handler decides as InputMethod does |
| VirtualKeyboard.ContentHintFlagsMatchOrigin | virtualkeyboard.cpp:399-428 | each content hint adds its own flag and nothing else: NoPredictiveText iff no AutoCompletion, NoAutoUppercase iff no AutoCapitalization, and PreferLowercase, PreferUppercase, HiddenText, SensitiveData, PreferLatin, MultiLine each iff their hint |
| VirtualKeyboard.PurposeHintsMatchOrigin | virtualkeyboard.cpp:429-466 | a purpose adds only its "only" flag or Date/Time: Digits, Number, Phone, Url and Email their one flag, Date and Time theirs, DateTime both |
| VirtualKeyboard.QtHintsMatchOrigin | virtualkeyboard.cpp:395-467 | a Qt hint is in the translation iff the one content hint or purpose it stands for is present; hints with no Wayland counterpart are never set |
| VirtualKeyboard.UnmappedInputsAreIgnored | virtualkeyboard.cpp:402-416 | AutoCorrection and TitleCase change nothing, and the purposes Name, Password, Terminal and Alpha translate as Normal |
| VirtualKeyboard.MaskBit | virtualkeyboard.cpp:467 | the hint mask has a flag's bit set iff the flag is in the hint set; each flag's bit is its Qt value (`HintBitIsQtValue`) |
| VirtualKeyboard.DecodeMask | virtualkeyboard.cpp:467 | decoding the hint mask gives back exactly the hint set |
| VirtualKeyboard.MaskDecode | virtualkeyboard.cpp:467 | re-encoding a decoded mask keeps every flag's bit |
| VirtualKeyboard.InputMethodQuery | virtualkeyboard.cpp:351-489 | the event is accepted and handled; exactly the asked queries among ImEnabled, ImCursorPosition, ImSurroundingText and ImHints get a value; ImEnabled answers whether something could be sent; the cursor position is 0; the surrounding text is empty; the hints are an integer, and ImhNone without an enabled text input |
| VirtualKeyboard.QueriedHintsDecode | virtualkeyboard.cpp:395-470 | the hints answered for an enabled text input fit in 32 bits and decode to exactly the Qt hints whose content hint or purpose is present |
| VirtualKeyboard.FocusedTextInputChanged | virtualkeyboard.cpp:130-196 | the input method is reset first and all queries refreshed last; with a text input focused the tracked client becomes the focused client; without one the keyboard is unchanged |
| VirtualKeyboard.FocusChangeClearsOnlyOldClient | virtualkeyboard.cpp:174-182 | a client's keyboard geometry is cleared iff it was tracked and the focus moved to a different client, and at most once |
| VirtualKeyboard.RefocusIsQuiet | virtualkeyboard.cpp:177-182 | reporting the same focus again changes nothing and clears no geometry |

## Left out

- Process and OS calls: spawning Xwayland, `pipe`, `socketpair`, `dup`, `close`, `setenv` and
  `exit`. Their outcomes are parameters: `StartEnv`, and the `pipeOpened` and `line` parameters
  of `HandleXwaylandStarted`. The closes appear as trace entries.
- `waitForFinished(5000)` in `stop`. Only the `Terminate` trace entry is kept, because time is
  not modelled.
- The QtConcurrent/QFutureWatcher read of the display pipe. Concurrency is not modelled.
  `HandleXwaylandStarted` runs the read and the follow-on `continueStartupWithX` in one step,
  and `XwaylandSession` lets the display-ready signal arrive at any point of a run.
- The environment passed to Xwayland holds only WAYLAND_SOCKET and EGL_PLATFORM. The rest of
  the compositor's startup environment is not modelled.
- xcb wire calls: `xcb_connect_to_fd`, `xcb_poll_for_event`, `xcb_flush`,
  `xcb_connection_has_error`, the input focus reset, `Xcb::sync`, `KSelectionOwner::claim`, atom
  creation and the native event filter. Their results are parameters and their effects are
  trace entries, because they are foreign library calls.
- The clipboard and drag-and-drop channels' internals. Their sources are not part of this model.
  Each channel is an opaque claim predicate and drag answer. The values of `DragEventReply` come
  from `xwl/drag.h`, which is not part of this model either.
- Socket notifier details (`installSocketNotifier`, `uninstallSocketNotifier`). They are reduced
  to a flag and trace entries, because event dispatcher wiring is not modelled.
- Xwayland's constructor, destructor and `self()`. They only keep a global pointer. The
  destructor's `stop` is `Xwayland.Stop`.
- `xwl/xwayland.h` is not part of this model. The supervisor's descriptors are taken to start
  at -1.
- In `XwaylandSession`, QProcess's own state changes are modelled only as the state it reports
  when it signals. Xwayland crashing without a signal is not modelled.
- The bridge is "non-copyable" and "at most one per session". This is a C++ type-level property
  with no counterpart in a value model. `ContinueStartupWithX` does replace any previous bridge.
- Qt signal/slot wiring and connection bookkeeping. The DBus on-screen display call is reduced
  to one trace entry.
- KStatusNotifierItem, QML, and the workspace repaint and stacking calls in `destroyClient` and
  `hideClient`. These are user interface plumbing.
- `adoptInputMethodContext`, the request handlers installed on the focused text input, and
  `updateInputPanelState`. They forward to external interfaces. `updateInputPanelState` appears
  only as a trace entry.
- `VirtualKeyboard.FocusedTextInputChanged`: emits `InputPanelStateUpdated` even when the new
  tracked client is none. The source then dereferences the null tracked client whenever a text
  input is focused and an input panel client exists (`virtualkeyboard.cpp:174-181`, `:316-318`).
  `refreshFrame` checks for null at `:110`, and that is not modelled.
- Logging: `qCWarning`, `qCDebug` and `std::cerr`.
- The focused text field in Overlay mode is passed in as the position of the window owning it,
  because the seat and window lookups are not modelled.
- C++ `int` overflow in the panel arithmetic and in process exit codes is not modelled. The
  integers are unbounded, because screen coordinates stay far from the limits.
- Byte-level handling of the display name. `readDisplay` hands it to `setenv` as a C string, so
  it stops at the first NUL byte, and `continueStartupWithX` reads DISPLAY back with UTF-8
  decoding (xwl/xwayland.cpp:63, 338). The model keeps the line as a string of characters
  throughout, because text encoding is not modelled.
- `setFrameGeometry` also calls `setReadyForPainting` and `autoRaise` when the geometry changes.
  They leave no trace entry, because painting and stacking are not modelled.
- `virtualkeyboard.h` is not part of this model. The enabled flag is taken to start false, as
  `VirtualKeyboard.Initial` has it, until `init` sets it.
- VirtualKeyboard.InputMethod: does not give the return value of `event` for input method
  events, because the base class `QObject::event` decides it.

=== FILE: databridge.dfy ===
/**
 * The selection bridge of an Xwayland session (xwl/databridge.cpp, xwl/databridge.h).
 *
 * The bridge owns the compositor's internal data device and two selection
 * channels, Clipboard and Dnd. The channels' own logic lives outside this
 * model: each is an opaque predicate saying whether it claims an X11 event,
 * and the Dnd channel also carries an opaque drag-move answer.
 */
module DataBridge {
  import opened Wrappers

  /** A raw X11 event as delivered by xcb; its contents are opaque here. */
  datatype XEvent = XEvent(responseType: nat, window: nat)

  /** The answer to a pointer motion during a drag (xwl/drag.h is not part of this model). */
  datatype DragEventReply = Ignore | Take | Wayland

  datatype Point = Point(x: int, y: int)

  /** The X11 selection atoms the two channels are bound to. */
  datatype Atom = ClipboardAtom | XdndSelectionAtom

  datatype Clipboard = Clipboard(atom: Atom, claims: XEvent -> bool)

  datatype Dnd = Dnd(atom: Atom, claims: XEvent -> bool, dragMove: (nat, Point) -> DragEventReply)

  /** What `init` needs from the channel constructors: their event filters and drag answer. */
  datatype Channels = Channels(
    clipboardClaims: XEvent -> bool,
    dndClaims: XEvent -> bool,
    dndDragMove: (nat, Point) -> DragEventReply)

  /** A Wayland client, identified by its connection. */
  datatype ClientId = ClientId(id: nat)

  /** The compositor-side data device of the internal client (KWayland::Client::DataDevice). */
  datatype DataDevice = DataDevice(id: nat)

  /** A server-side data device object (KWaylandServer::DataDeviceInterface) and its owning client. */
  datatype DeviceIface = DeviceIface(id: nat, client: ClientId)

  datatype Bridge = Bridge(
    clipboard: Option<Clipboard>,
    dnd: Option<Dnd>,
    dataDevice: Option<DataDevice>,
    dataDeviceIface: Option<DeviceIface>)

  /** Which channel a filtered event was offered to. */
  datatype ChannelKind = ClipboardChannel | DndChannel

  /** The outcome of `filterEvent`: whether the event was consumed, by whom, and who saw it. */
  datatype FilterResult = FilterResult(handled: bool, handledBy: Option<ChannelKind>, consulted: seq<ChannelKind>)

  /** A bridge as it stands after any sequence of operations: the channels exist exactly once the
      server-side device has been matched, and the internal data device always exists. */
  ghost predicate Valid(b: Bridge)
  {
    && b.dataDevice.Some?
    && (b.dataDeviceIface.Some? <==> b.clipboard.Some?)
    && (b.dataDeviceIface.Some? <==> b.dnd.Some?)
    && (b.clipboard.Some? ==> b.clipboard.value.atom == ClipboardAtom)
    && (b.dnd.Some? ==> b.dnd.value.atom == XdndSelectionAtom)
  }

  /** The constructor: obtains the internal data device and leaves every other member at its default. */
  function Construct(device: DataDevice): (b: Bridge)
    ensures Valid(b)
    ensures b.dataDevice == Some(device)
    ensures b.clipboard == None && b.dnd == None && b.dataDeviceIface == None
  {
    Bridge(None, None, Some(device), None)
  }

  /** `init`: creates the clipboard channel on the CLIPBOARD atom and the dnd channel on XdndSelection. */
  function Init(b: Bridge, ch: Channels): (r: Bridge)
    ensures r.clipboard == Some(Clipboard(ClipboardAtom, ch.clipboardClaims))
    ensures r.dnd == Some(Dnd(XdndSelectionAtom, ch.dndClaims, ch.dndDragMove))
    ensures r.dataDevice == b.dataDevice && r.dataDeviceIface == b.dataDeviceIface
  {
    b.(clipboard := Some(Clipboard(ClipboardAtom, ch.clipboardClaims)),
       dnd := Some(Dnd(XdndSelectionAtom, ch.dndClaims, ch.dndDragMove)))
  }

  /** The one-shot handler for `dataDeviceCreated`: the first device owned by the internal
      connection is adopted and the channels are created; every other notification is ignored. */
  function OnDataDeviceCreated(b: Bridge, iface: DeviceIface, internal: ClientId, ch: Channels): (r: Bridge)
    ensures Valid(b) ==> Valid(r)
    ensures r.dataDevice == b.dataDevice
    ensures b.dataDeviceIface.Some? ==> r == b
    ensures iface.client != internal ==> r == b
    ensures b.dataDeviceIface.None? && iface.client == internal ==>
              r.dataDeviceIface == Some(iface)
              && r.clipboard == Some(Clipboard(ClipboardAtom, ch.clipboardClaims))
              && r.dnd == Some(Dnd(XdndSelectionAtom, ch.dndClaims, ch.dndDragMove))
  {
    if b.dataDeviceIface.Some? then b
    else if iface.client != internal then b
    else Init(b.(dataDeviceIface := Some(iface)), ch)
  }

  /** Delivers a sequence of `dataDeviceCreated` notifications in order. */
  function DeliverAll(b: Bridge, ifaces: seq<DeviceIface>, internal: ClientId, ch: Channels): (r: Bridge)
    requires Valid(b)
    ensures Valid(r)
    decreases |ifaces|
  {
    if ifaces == [] then b
    else DeliverAll(OnDataDeviceCreated(b, ifaces[0], internal, ch), ifaces[1..], internal, ch)
  }

  /** Reference definition: the first device in `ifaces` that belongs to the internal client. */
  function FirstInternal(ifaces: seq<DeviceIface>, internal: ClientId): Option<DeviceIface>
  {
    if ifaces == [] then None
    else if ifaces[0].client == internal then Some(ifaces[0])
    else FirstInternal(ifaces[1..], internal)
  }

  /** The registration latch: whatever notifications arrive, an already adopted device is kept,
      and otherwise the adopted device is exactly the first one of the internal client. */
  lemma {:induction false} DeliverAllAdoptsFirstInternal(b: Bridge, ifaces: seq<DeviceIface>, internal: ClientId, ch: Channels)
    requires Valid(b)
    ensures b.dataDeviceIface.Some? ==> DeliverAll(b, ifaces, internal, ch) == b
    ensures b.dataDeviceIface.None? ==>
              DeliverAll(b, ifaces, internal, ch).dataDeviceIface == FirstInternal(ifaces, internal)
    decreases |ifaces|
  {
    if ifaces != [] {
      var b1 := OnDataDeviceCreated(b, ifaces[0], internal, ch);
      DeliverAllAdoptsFirstInternal(b1, ifaces[1..], internal, ch);
    }
  }

  /** Once a device has been adopted, later notifications change nothing: it is assigned at most once. */
  lemma {:induction false} AdoptedDeviceIsStable(b: Bridge, ifaces: seq<DeviceIface>, more: seq<DeviceIface>, internal: ClientId, ch: Channels)
    requires Valid(b)
    requires DeliverAll(b, ifaces, internal, ch).dataDeviceIface.Some?
    ensures DeliverAll(b, ifaces + more, internal, ch) == DeliverAll(b, ifaces, internal, ch)
    decreases |ifaces|
  {
    if ifaces == [] {
      assert ifaces + more == more;
      DeliverAllAdoptsFirstInternal(b, more, internal, ch);
    } else {
      var b1 := OnDataDeviceCreated(b, ifaces[0], internal, ch);
      assert (ifaces + more)[1..] == ifaces[1..] + more;
      AdoptedDeviceIsStable(b1, ifaces[1..], more, internal, ch);
    }
  }

  /** `filterEvent`: the clipboard channel is asked first; the dnd channel only when the clipboard
      channel is absent or declines; the first claim wins. */
  function FilterEvent(b: Bridge, e: XEvent): (r: FilterResult)
    ensures r.handled <==> (b.clipboard.Some? && b.clipboard.value.claims(e))
                           || (b.dnd.Some? && b.dnd.value.claims(e))
    ensures r.handled <==> r.handledBy.Some?
    ensures r.handledBy == Some(ClipboardChannel) <==> b.clipboard.Some? && b.clipboard.value.claims(e)
    ensures r.handledBy.Some? ==> r.handledBy.value in r.consulted
    ensures ClipboardChannel in r.consulted <==> b.clipboard.Some?
    ensures DndChannel in r.consulted <==>
              b.dnd.Some? && !(b.clipboard.Some? && b.clipboard.value.claims(e))
    ensures |r.consulted| <= 2
    ensures |r.consulted| == 2 ==> r.consulted[0] == ClipboardChannel
  {
    var clip := if b.clipboard.Some? then [ClipboardChannel] else [];
    if b.clipboard.Some? && b.clipboard.value.claims(e) then
      FilterResult(true, Some(ClipboardChannel), clip)
    else if b.dnd.Some? && b.dnd.value.claims(e) then
      FilterResult(true, Some(DndChannel), clip + [DndChannel])
    else
      FilterResult(false, None, clip + (if b.dnd.Some? then [DndChannel] else []))
  }

  /** `dragMoveFilter`: answers Wayland without a dnd channel and otherwise asks the channel. */
  function DragMoveFilter(b: Bridge, target: nat, pos: Point): (r: DragEventReply)
    ensures b.dnd.None? ==> r == Wayland
    ensures b.dnd.Some? ==> r == b.dnd.value.dragMove(target, pos)
  {
    if b.dnd.None? then Wayland else b.dnd.value.dragMove(target, pos)
  }

  /** Accessor `dataDevice`. */
  function GetDataDevice(b: Bridge): Option<DataDevice>
  {
    b.dataDevice
  }

  /** Accessor `dataDeviceIface`. */
  function GetDataDeviceIface(b: Bridge): Option<DeviceIface>
  {
    b.dataDeviceIface
  }

  /** Accessor `dnd`. */
  function GetDnd(b: Bridge): Option<Dnd>
  {
    b.dnd
  }

  /** What the accessors report once construction (and the dispatch it triggers) is over: the
      internal data device, the first server-side device of the internal client, and a dnd
      channel exactly when such a device was found. */
  lemma AccessorsAfterConstruction(device: DataDevice, ifaces: seq<DeviceIface>, internal: ClientId, ch: Channels)
    ensures GetDataDevice(DeliverAll(Construct(device), ifaces, internal, ch)) == Some(device)
    ensures GetDataDeviceIface(DeliverAll(Construct(device), ifaces, internal, ch)) == FirstInternal(ifaces, internal)
    ensures GetDnd(DeliverAll(Construct(device), ifaces, internal, ch)).Some? <==> FirstInternal(ifaces, internal).Some?
  {
    DeliverAllAdoptsFirstInternal(Construct(device), ifaces, internal, ch);
    DeliverAllKeepsDevice(Construct(device), ifaces, internal, ch);
  }

  lemma {:induction false} DeliverAllKeepsDevice(b: Bridge, ifaces: seq<DeviceIface>, internal: ClientId, ch: Channels)
    requires Valid(b)
    ensures DeliverAll(b, ifaces, internal, ch).dataDevice == b.dataDevice
    decreases |ifaces|
  {
    if ifaces != [] {
      DeliverAllKeepsDevice(OnDataDeviceCreated(b, ifaces[0], internal, ch), ifaces[1..], internal, ch);
    }
  }

  /** A bridge whose construction-time dispatch delivered no internal device has no channels, so it
      consumes no event and leaves every drag to Wayland. */
  lemma UnregisteredBridgeIsInert(device: DataDevice, ifaces: seq<DeviceIface>, internal: ClientId, ch: Channels, e: XEvent, target: nat, pos: Point)
    requires FirstInternal(ifaces, internal).None?
    ensures !FilterEvent(DeliverAll(Construct(device), ifaces, internal, ch), e).handled
    ensures DragMoveFilter(DeliverAll(Construct(device), ifaces, internal, ch), target, pos) == Wayland
  {
    DeliverAllAdoptsFirstInternal(Construct(device), ifaces, internal, ch);
  }
}

=== FILE: inputpanel.dfy ===
/**
 * The input panel window of a virtual keyboard (inputpanelv1client.cpp,
 * inputpanelv1client.h): where the panel surface is placed, and whether it is
 * shown. Geometry is integer rectangle arithmetic; the window-manager calls
 * (repaints, stacking, raising) are left out.
 */
module InputPanel {
  import opened Wrappers

  /** InputPanelV1Client::Mode. */
  datatype Mode = Toplevel | Overlay

  /** A QSize. */
  datatype Size = Size(width: int, height: int)

  /** QSize::isValid. */
  predicate IsValid(sz: Size)
  {
    sz.width >= 0 && sz.height >= 0
  }

  /** QSize::isEmpty. */
  predicate IsEmpty(sz: Size)
  {
    sz.width <= 0 || sz.height <= 0
  }

  datatype Point = Point(x: int, y: int)

  /** A QRect, by its top-left corner and size; two QRects are equal exactly when these are. */
  datatype Rect = Rect(x: int, y: int, width: int, height: int)

  /** QRect(): the null rectangle. */
  const NullRect := Rect(0, 0, 0, 0)

  /** An output the panel can be placed on, reduced to its geometry. */
  datatype Output = Output(geometry: Rect)

  /** The subset of NET::WindowType the model needs. */
  datatype WindowType = Normal | Dock | Dialog | Utility

  datatype Panel = Panel(
    mode: Mode,
    output: Option<Output>,
    visible: bool,
    zombie: bool,
    frame: Rect,
    clientGeometry: Rect,
    surfaceSize: Size)

  datatype Event =
    | FrameGeometryChanged(geometry: Rect)
    | ClientGeometryChanged(geometry: Rect)
    | BufferGeometryChanged(geometry: Rect)
    | WindowHidden
    | WindowShown
    | WindowClosed

  datatype Step = Step(panel: Panel, trace: seq<Event>)

  /** Euclidean division of a non-negative n by a positive b brackets n between multiples of b. */
  lemma DivBrackets(n: int, b: int)
    requires n >= 0 && b > 0
    ensures 0 <= n / b && (n / b) * b <= n < (n / b) * b + b
  {
  }

  lemma NegateProduct(x: int, b: int)
    ensures (-x) * b == -(x * b)
  {
  }

  /** C++ integer division of a by a positive b: the quotient truncated toward zero. */
  function CDiv(a: int, b: int): (q: int)
    requires b > 0
    ensures a >= 0 ==> 0 <= q && q * b <= a < q * b + b
    ensures a < 0 ==> q <= 0 && q * b - b < a <= q * b
  {
    if a >= 0 then
      DivBrackets(a, b);
      a / b
    else
      DivBrackets(-a, b);
      NegateProduct((-a) / b, b);
      -((-a) / b)
  }

  /** A freshly created panel: Toplevel mode, visible, on no output, with the null frame. */
  function New(surfaceSize: Size): (p: Panel)
    ensures p.mode == Toplevel && p.visible && !p.zombie && p.output.None?
    ensures IsShown(p) && !IsHiddenInternal(p)
  {
    Panel(Toplevel, None, true, false, NullRect, NullRect, surfaceSize)
  }

  /** setFrameGeometry: a no-op for the current geometry; otherwise frame and client geometry
      both become `g`, and frame, client and buffer geometry changes are signalled in that order. */
  function SetFrameGeometry(p: Panel, g: Rect): (r: Step)
    ensures p.frame == g ==> r == Step(p, [])
    ensures p.frame != g ==>
              && r.panel == p.(frame := g, clientGeometry := g)
              && r.trace == [FrameGeometryChanged(g), ClientGeometryChanged(g), BufferGeometryChanged(g)]
    ensures r.panel.frame == g
  {
    if p.frame == g then Step(p, [])
    else Step(p.(frame := g, clientGeometry := g),
              [FrameGeometryChanged(g), ClientGeometryChanged(g), BufferGeometryChanged(g)])
  }

  /** `f` has size `sz`, sits on the bottom edge of `out`, and is horizontally centred on it to
      within the one pixel lost to truncation. */
  predicate BottomCentred(f: Rect, out: Rect, sz: Size)
  {
    var left := f.x - out.x;
    var right := out.x + out.width - (f.x + f.width);
    && f.width == sz.width && f.height == sz.height
    && f.y + f.height == out.y + out.height
    && -1 <= right - left <= 1
  }

  /** Where a Toplevel panel of size `sz` goes on an output: centred at the bottom. */
  function ToplevelFrame(out: Rect, sz: Size): Rect
  {
    Rect(out.x + CDiv(out.width - sz.width, 2), out.y + out.height - sz.height, sz.width, sz.height)
  }

  /** reposition: a Toplevel panel is centred at the bottom of its output, provided it has one
      and its surface size is valid and not empty; an Overlay panel is put at the focused text
      field (`focusedField`, the position of the window owning it, if any) with the surface size. */
  function Reposition(p: Panel, focusedField: Option<Point>): (r: Step)
    ensures r.panel.(frame := p.frame, clientGeometry := p.clientGeometry) == p
    ensures p.mode == Toplevel && (p.output.None? || !IsValid(p.surfaceSize) || IsEmpty(p.surfaceSize)) ==>
              r == Step(p, [])
    ensures p.mode == Toplevel && p.output.Some? && IsValid(p.surfaceSize) && !IsEmpty(p.surfaceSize) ==>
              && r == SetFrameGeometry(p, ToplevelFrame(p.output.value.geometry, p.surfaceSize))
              && BottomCentred(r.panel.frame, p.output.value.geometry, p.surfaceSize)
    ensures p.mode == Overlay && focusedField.None? ==> r == Step(p, [])
    ensures p.mode == Overlay && focusedField.Some? ==>
              r == SetFrameGeometry(p, Rect(focusedField.value.x, focusedField.value.y, p.surfaceSize.width, p.surfaceSize.height))
  {
    match p.mode
    case Toplevel =>
      if p.output.None? then Step(p, [])
      else if !IsValid(p.surfaceSize) || IsEmpty(p.surfaceSize) then Step(p, [])
      else
        var out := p.output.value.geometry;
        // QRect(topLeft, size) translated by the centring offset
        var geo := Rect(out.x, out.y, p.surfaceSize.width, p.surfaceSize.height);
        SetFrameGeometry(p, geo.(x := geo.x + CDiv(out.width - p.surfaceSize.width, 2),
                                  y := geo.y + out.height - p.surfaceSize.height))
    case Overlay =>
      if focusedField.None? then Step(p, [])
      else SetFrameGeometry(p, Rect(focusedField.value.x, focusedField.value.y, p.surfaceSize.width, p.surfaceSize.height))
  }

  /** When the output is at least as wide as the panel, the right margin is the left margin or
      one pixel more. */
  lemma ToplevelMargins(out: Rect, sz: Size)
    requires out.width >= sz.width
    ensures var f := ToplevelFrame(out, sz);
            var left := f.x - out.x;
            var right := out.x + out.width - (f.x + f.width);
            0 <= left && left <= right <= left + 1
  {
  }

  /** reposition reaches a fixed point: doing it again moves nothing and signals nothing. */
  lemma RepositionIsIdempotent(p: Panel, focusedField: Option<Point>)
    ensures var r := Reposition(p, focusedField);
            Reposition(r.panel, focusedField) == Step(r.panel, [])
  {
  }

  /** showOverlayPanel: clears the output, switches to Overlay and repositions. */
  function ShowOverlayPanel(p: Panel, focusedField: Option<Point>): (r: Step)
    ensures r.panel.mode == Overlay && r.panel.output.None?
    ensures r.panel.visible == p.visible && r.panel.surfaceSize == p.surfaceSize
    ensures focusedField.None? ==> r.panel.frame == p.frame && r.trace == []
    ensures focusedField.Some? ==>
              r.panel.frame == Rect(focusedField.value.x, focusedField.value.y, p.surfaceSize.width, p.surfaceSize.height)
  {
    Reposition(p.(output := None, mode := Overlay), focusedField)
  }

  /** showTopLevel: switches to Toplevel on the given output (None when the compositor does
      not know it) and repositions; the requested position is ignored. */
  function ShowTopLevel(p: Panel, output: Option<Output>, position: nat, focusedField: Option<Point>): (r: Step)
    ensures r.panel.mode == Toplevel && r.panel.output == output
    ensures r.panel.visible == p.visible && r.panel.surfaceSize == p.surfaceSize
    ensures output.None? ==> r.panel.frame == p.frame && r.trace == []
    ensures output.Some? && IsValid(p.surfaceSize) && !IsEmpty(p.surfaceSize) ==>
              r.panel.frame == ToplevelFrame(output.value.geometry, p.surfaceSize)
  {
    Reposition(p.(mode := Toplevel, output := output), focusedField)
  }

  /** The surface was resized: reposition with the new size. */
  function SurfaceSizeChanged(p: Panel, size: Size, focusedField: Option<Point>): (r: Step)
    ensures r.panel.surfaceSize == size && r.panel.mode == p.mode && r.panel.output == p.output
    ensures p.mode == Toplevel && p.output.Some? && IsValid(size) && !IsEmpty(size) ==>
              BottomCentred(r.panel.frame, p.output.value.geometry, size)
    ensures p.mode == Overlay && focusedField.Some? ==>
              r.panel.frame == Rect(focusedField.value.x, focusedField.value.y, size.width, size.height)
  {
    Reposition(p.(surfaceSize := size), focusedField)
  }

  /** The output the panel sits on changed its geometry (mode, position, scale or transform):
      reposition on the new geometry. A panel on no output is not affected. */
  function OutputGeometryChanged(p: Panel, geometry: Rect, focusedField: Option<Point>): (r: Step)
    ensures p.output.None? ==> r == Step(p, [])
    ensures p.output.Some? ==> r.panel.output == Some(Output(geometry))
    ensures p.output.Some? && p.mode == Toplevel && IsValid(p.surfaceSize) && !IsEmpty(p.surfaceSize) ==>
              BottomCentred(r.panel.frame, geometry, p.surfaceSize)
  {
    if p.output.None? then Step(p, [])
    else Reposition(p.(output := Some(Output(geometry))), focusedField)
  }

  /** hideClient: visible becomes the negation of `hidden`. Hiding signals windowHidden;
      showing repositions first and then signals windowShown. */
  function HideClient(p: Panel, hidden: bool, focusedField: Option<Point>): (r: Step)
    ensures r.panel.visible == !hidden
    ensures IsHiddenInternal(r.panel) == hidden
    ensures IsShown(r.panel) <==> !hidden && !p.zombie
    ensures hidden ==> r == Step(p.(visible := false), [WindowHidden])
    ensures !hidden ==> (|r.trace| > 0 && r.trace[|r.trace| - 1] == WindowShown
                         && WindowShown !in r.trace[..|r.trace| - 1])
    ensures r.panel.(frame := p.frame, clientGeometry := p.clientGeometry, visible := p.visible) == p
    ensures !hidden ==>
              var moved := Reposition(p.(visible := true), focusedField);
              r == Step(moved.panel, moved.trace + [WindowShown])
  {
    var q := p.(visible := !hidden);
    if hidden then Step(q, [WindowHidden])
    else
      var moved := Reposition(q, focusedField);
      Step(moved.panel, moved.trace + [WindowShown])
  }

  /** destroyClient, reduced to what the panel itself keeps: it becomes a zombie. */
  function DestroyClient(p: Panel): (r: Step)
    ensures r.panel.zombie && !IsShown(r.panel)
    ensures r.panel.(zombie := p.zombie) == p
  {
    Step(p.(zombie := true), [WindowClosed])
  }

  /** isShown: visible and not a zombie. */
  predicate IsShown(p: Panel)
  {
    p.visible && !p.zombie
  }

  /** isHiddenInternal. */
  predicate IsHiddenInternal(p: Panel)
  {
    !p.visible
  }

  /** bufferGeometry. */
  function BufferGeometry(p: Panel): Rect
  {
    p.frame
  }

  /** windowType, whatever is asked. */
  function GetWindowType(direct: bool, supportedTypes: int): WindowType
  {
    Utility
  }

  /** The capabilities an input panel reports regardless of its state. */
  datatype Capabilities = Capabilities(
    closeable: bool, resizable: bool, movable: bool, movableAcrossScreens: bool,
    acceptsFocus: bool, wantsInput: bool, takeFocus: bool, isInputMethod: bool,
    noBorder: bool, userCanSetNoBorder: bool, supportsWindowRules: bool, initialPositionSet: bool)

  function GetCapabilities(p: Panel): Capabilities
  {
    Capabilities(false, false, false, false, false, false, false, true, true, false, false, true)
  }

  /** The panel is shown exactly while it is visible and alive, and hidden internally exactly
      while not visible; its buffer geometry is its frame, its type Utility, and it never takes
      focus, input, a close, a move or a resize. */
  lemma PanelQueries(p: Panel, direct: bool, supportedTypes: int)
    ensures IsShown(p) <==> !IsHiddenInternal(p) && !p.zombie
    ensures BufferGeometry(p) == p.frame
    ensures GetWindowType(direct, supportedTypes) == Utility
    ensures var c := GetCapabilities(p);
            !c.closeable && !c.resizable && !c.movable && !c.movableAcrossScreens
            && !c.acceptsFocus && !c.wantsInput && !c.takeFocus && c.isInputMethod
            && c.noBorder && !c.userCanSetNoBorder && !c.supportsWindowRules && c.initialPositionSet
  {
  }

  /** Hiding and showing again restores visibility, and the shown panel is placed as a
      reposition would place it. */
  lemma HideThenShow(p: Panel, focusedField: Option<Point>)
    ensures var shown := HideClient(HideClient(p, true, focusedField).panel, false, focusedField).panel;
            && shown.visible
            && shown.frame == Reposition(p.(visible := true), focusedField).panel.frame
  {
  }
}

=== FILE: virtualkeyboard.dfy ===
/**
 * The compositor side of the virtual keyboard (virtualkeyboard.cpp): switching it on and off,
 * forwarding what the input method produced to the focused text input as a commit or a
 * pre-edit, answering the input method's queries (notably translating the text input's
 * content hints and purpose into Qt input method hints), and keeping track of which client
 * the keyboard geometry was last reported to.
 */
module VirtualKeyboard {
  import opened Wrappers

  /** A Wayland client window, by identity. */
  datatype ClientId = ClientId(id: nat)

  /** TextInputInterface::ContentHint; a text input carries a set of them. */
  datatype ContentHint =
    | AutoCompletion | AutoCorrection | AutoCapitalization | LowerCase | UpperCase
    | TitleCase | HiddenText | SensitiveData | Latin | MultiLine

  /** TextInputInterface::ContentPurpose. */
  datatype ContentPurpose =
    | Normal | Alpha | Digits | Number | Phone | Url | Email | Name | Password
    | Date | Time | DateTime | Terminal

  /** The focused text input, as far as the keyboard looks at it. */
  datatype TextInput = TextInput(enabled: bool, hints: set<ContentHint>, purpose: ContentPurpose)

  datatype Keyboard = Keyboard(
    enabled: bool,
    /** whether the compositor runs as a Wayland server at all */
    waylandServer: bool,
    /** the client whose virtual keyboard geometry was last set */
    trackedClient: Option<ClientId>)

  datatype Event =
    | QueryAllUpdated
    | EnabledChanged(enabled: bool)
    | OsdNotified(enabled: bool)
    | InputMethodReset
    | KeyboardGeometryCleared(client: ClientId)
    | InputPanelStateUpdated

  datatype Step = Step(keyboard: Keyboard, trace: seq<Event>)

  /** The keyboard as the compositor creates it: disabled, tracking no client. */
  function Initial(waylandServer: bool): (k: Keyboard)
    ensures !k.enabled && k.trackedClient.None?
  {
    Keyboard(false, waylandServer, None)
  }

  /** init: as a Wayland server, the keyboard starts enabled exactly when no alphanumeric
      keyboard is attached. The flag is assigned directly, so nothing is signalled. */
  function Init(k: Keyboard, hasAlphaNumericKeyboard: bool): (r: Keyboard)
    ensures k.waylandServer ==> (r.enabled <==> !hasAlphaNumericKeyboard)
    ensures !k.waylandServer ==> r == k
    ensures r.(enabled := k.enabled) == k
  {
    if k.waylandServer then k.(enabled := !hasAlphaNumericKeyboard) else k
  }

  // ---------------------------------------------------------------------------------------
  // Switching on and off
  // ---------------------------------------------------------------------------------------

  /** setEnabled: nothing happens when the value does not change; otherwise the flag is set, all
      input method queries are refreshed, enabledChanged is emitted and the on-screen display
      is told. */
  function SetEnabled(k: Keyboard, enabled: bool): (r: Step)
    ensures r.keyboard.enabled == enabled
    ensures r.keyboard.(enabled := k.enabled) == k
    ensures r.trace == [] <==> k.enabled == enabled
    ensures k.enabled != enabled ==>
              r.trace == [QueryAllUpdated, EnabledChanged(enabled), OsdNotified(enabled)]
  {
    if k.enabled == enabled then Step(k, [])
    else Step(k.(enabled := enabled), [QueryAllUpdated, EnabledChanged(enabled), OsdNotified(enabled)])
  }

  /** Setting the same value twice signals once. */
  lemma SetEnabledIsIdempotent(k: Keyboard, enabled: bool)
    ensures var once := SetEnabled(k, enabled);
            SetEnabled(once.keyboard, enabled) == Step(once.keyboard, [])
  {
  }

  /** Toggling and toggling back restores the keyboard, with one change notification each way. */
  lemma ToggleTwiceRestores(k: Keyboard)
    ensures var there := SetEnabled(k, !k.enabled);
            var back := SetEnabled(there.keyboard, k.enabled);
            && back.keyboard == k
            && EnabledChanged(!k.enabled) in there.trace && EnabledChanged(k.enabled) in back.trace
  {
  }

  // ---------------------------------------------------------------------------------------
  // Input method events: commit or pre-edit
  // ---------------------------------------------------------------------------------------

  /** QInputMethodEvent::AttributeType. */
  datatype AttributeType = TextFormat | Cursor | Language | Ruby | Selection

  datatype Attribute = Attribute(kind: AttributeType, start: int, length: int)

  /** A QInputMethodEvent: its attributes, pre-edit string and commit string. */
  datatype InputMethodEvent = InputMethodEvent(attributes: seq<Attribute>, preedit: string, commit: string)

  /** What reaches the focused text input. */
  datatype Delivery = NothingSent | Commit(text: string) | PreEdit(preedit: string, commit: string)

  /** Every attribute kind except a selection marks the event as a pre-edit. */
  predicate MarksPreedit(kind: AttributeType)
  {
    kind != Selection
  }

  /** Some attribute of the event marks it as a pre-edit. */
  predicate HasPreeditAttribute(attrs: seq<Attribute>)
  {
    exists i :: 0 <= i < |attrs| && MarksPreedit(attrs[i].kind)
  }

  /** The text input the keyboard may talk to: the focused one, provided it is enabled. */
  predicate MaySend(k: Keyboard, focused: Option<TextInput>)
  {
    k.enabled && k.waylandServer && focused.Some? && focused.value.enabled
  }

  /** The input method event handler. Nothing is sent unless the keyboard is enabled, a Wayland
      server exists and the focused text input is enabled. A plain commit is sent exactly when
      no attribute marks a pre-edit, the pre-edit string is empty and the commit string is not;
      anything else goes out as a pre-edit carrying both strings. */
  function InputMethod(k: Keyboard, e: InputMethodEvent, focused: Option<TextInput>): (r: Delivery)
    ensures r.NothingSent? <==> !MaySend(k, focused)
    ensures r.Commit? <==>
              MaySend(k, focused) && !HasPreeditAttribute(e.attributes) && e.preedit == [] && e.commit != []
    ensures r.Commit? ==> r.text == e.commit
    ensures r.PreEdit? ==> r.preedit == e.preedit && r.commit == e.commit
  {
    if !MaySend(k, focused) then NothingSent
    else if !HasPreeditAttribute(e.attributes) && e.preedit == [] && e.commit != [] then Commit(e.commit)
    else PreEdit(e.preedit, e.commit)
  }

  /** The committed text a delivery carries, if any. */
  function CommittedText(d: Delivery): string
  {
    match d
    case NothingSent => []
    case Commit(text) => text
    case PreEdit(_, commit) => commit
  }

  /** Whenever something is sent, the commit string arrives intact, and a pre-edit string is
      never dropped: a plain commit is only chosen when there is none. */
  lemma DeliveryKeepsText(k: Keyboard, e: InputMethodEvent, focused: Option<TextInput>)
    requires MaySend(k, focused)
    ensures var d := InputMethod(k, e, focused);
            && CommittedText(d) == e.commit
            && (d.Commit? ==> e.preedit == [])
            && (e.preedit != [] ==> d == PreEdit(e.preedit, e.commit))
  {
  }

  /** The handler as written: one pass over the attributes, setting the pre-edit flag on any
      attribute that is not a selection (no early exit), then the same decision. */
  method HandleInputMethod(k: Keyboard, e: InputMethodEvent, focused: Option<TextInput>)
    returns (r: Delivery)
    ensures r == InputMethod(k, e, focused)
  {
    r := NothingSent;
    if k.enabled && k.waylandServer {
      var isPreedit := false;
      var i := 0;
      while i < |e.attributes|
        invariant 0 <= i <= |e.attributes|
        invariant isPreedit <==> exists j :: 0 <= j < i && MarksPreedit(e.attributes[j].kind)
      {
        match e.attributes[i].kind {
          case TextFormat => isPreedit := true;
          case Cursor => isPreedit := true;
          case Language => isPreedit := true;
          case Ruby => isPreedit := true;
          case Selection =>
        }
        i := i + 1;
      }
      if focused.Some? && focused.value.enabled {
        if !isPreedit && e.preedit == [] && e.commit != [] {
          r := Commit(e.commit);
        } else {
          r := PreEdit(e.preedit, e.commit);
        }
      }
    }
  }

  // ---------------------------------------------------------------------------------------
  // Content hints and purpose as Qt input method hints
  // ---------------------------------------------------------------------------------------

  /** Qt::InputMethodHint flags, each with its value in Qt's enumeration (see HintBit). */
  datatype QtHint =
    | ImhHiddenText | ImhSensitiveData | ImhNoAutoUppercase | ImhPreferNumbers
    | ImhPreferUppercase | ImhPreferLowercase | ImhNoPredictiveText | ImhDate | ImhTime
    | ImhPreferLatin | ImhMultiLine
    | ImhDigitsOnly | ImhFormattedNumbersOnly | ImhUppercaseOnly | ImhLowercaseOnly
    | ImhDialableCharactersOnly | ImhEmailCharactersOnly | ImhUrlCharactersOnly | ImhLatinOnly

  /** The purpose's contribution: at most one "only" flag, or Date and Time for DateTime. */
  function PurposeHints(purpose: ContentPurpose): set<QtHint>
  {
    match purpose
    case Digits => {ImhDigitsOnly}
    case Number => {ImhFormattedNumbersOnly}
    case Phone => {ImhDialableCharactersOnly}
    case Url => {ImhUrlCharactersOnly}
    case Email => {ImhEmailCharactersOnly}
    case Date => {ImhDate}
    case Time => {ImhTime}
    case DateTime => {ImhDate, ImhTime}
    case Name => {}
    case Password => {}
    case Terminal => {}
    case Normal => {}
    case Alpha => {}
  }

  /** The content hints' contribution, flag by flag. */
  function ContentHintFlags(hints: set<ContentHint>): set<QtHint>
  {
    (if AutoCompletion !in hints then {ImhNoPredictiveText} else {})
    + (if AutoCapitalization !in hints then {ImhNoAutoUppercase} else {})
    + (if LowerCase in hints then {ImhPreferLowercase} else {})
    + (if UpperCase in hints then {ImhPreferUppercase} else {})
    + (if HiddenText in hints then {ImhHiddenText} else {})
    + (if SensitiveData in hints then {ImhSensitiveData} else {})
    + (if Latin in hints then {ImhPreferLatin} else {})
    + (if MultiLine in hints then {ImhMultiLine} else {})
  }

  /** The hints handed to the input method for a text input, built as the query handler does.
      Auto-correction and title case have no counterpart in Qt. */
  function QtHints(hints: set<ContentHint>, purpose: ContentPurpose): set<QtHint>
  {
    ContentHintFlags(hints) + PurposeHints(purpose)
  }

  /** The flags a content purpose can contribute. */
  predicate IsPurposeFlag(f: QtHint)
  {
    f in {ImhDigitsOnly, ImhFormattedNumbersOnly, ImhDialableCharactersOnly, ImhUrlCharactersOnly,
          ImhEmailCharactersOnly, ImhDate, ImhTime}
  }

  /** The reason, if any, that a Qt flag is set: for each flag, the one content hint or purpose
      it stands for. Flags with no Wayland counterpart are never set. */
  predicate Origin(f: QtHint, hints: set<ContentHint>, purpose: ContentPurpose)
  {
    match f
    case ImhNoPredictiveText => AutoCompletion !in hints
    case ImhNoAutoUppercase => AutoCapitalization !in hints
    case ImhPreferLowercase => LowerCase in hints
    case ImhPreferUppercase => UpperCase in hints
    case ImhHiddenText => HiddenText in hints
    case ImhSensitiveData => SensitiveData in hints
    case ImhPreferLatin => Latin in hints
    case ImhMultiLine => MultiLine in hints
    case ImhDigitsOnly => purpose == Digits
    case ImhFormattedNumbersOnly => purpose == Number
    case ImhDialableCharactersOnly => purpose == Phone
    case ImhUrlCharactersOnly => purpose == Url
    case ImhEmailCharactersOnly => purpose == Email
    case ImhDate => purpose == Date || purpose == DateTime
    case ImhTime => purpose == Time || purpose == DateTime
    case ImhPreferNumbers => false
    case ImhUppercaseOnly => false
    case ImhLowercaseOnly => false
    case ImhLatinOnly => false
  }

  /** The content hints set only non-purpose flags, each exactly when its origin holds. */
  lemma ContentHintFlagsMatchOrigin(hints: set<ContentHint>, purpose: ContentPurpose, f: QtHint)
    requires !IsPurposeFlag(f)
    ensures f in ContentHintFlags(hints) <==> Origin(f, hints, purpose)
  {
  }

  /** The purpose sets only purpose flags, each exactly when its origin holds. */
  lemma PurposeHintsMatchOrigin(hints: set<ContentHint>, purpose: ContentPurpose, f: QtHint)
    ensures f in PurposeHints(purpose) <==> IsPurposeFlag(f) && Origin(f, hints, purpose)
  {
  }

  lemma ContentHintFlagsAreNotPurposeFlags(hints: set<ContentHint>, f: QtHint)
    requires f in ContentHintFlags(hints)
    ensures !IsPurposeFlag(f)
  {
  }

  /** A Qt flag is in the translated hints exactly when its origin holds. */
  lemma QtHintsMatchOrigin(hints: set<ContentHint>, purpose: ContentPurpose, f: QtHint)
    ensures f in QtHints(hints, purpose) <==> Origin(f, hints, purpose)
  {
    PurposeHintsMatchOrigin(hints, purpose, f);
    if IsPurposeFlag(f) {
      if f in ContentHintFlags(hints) {
        ContentHintFlagsAreNotPurposeFlags(hints, f);
      }
    } else {
      ContentHintFlagsMatchOrigin(hints, purpose, f);
    }
  }

  /** Auto-correction and title case change nothing, and neither do the purposes Qt has no flag
      for. */
  lemma UnmappedInputsAreIgnored(hints: set<ContentHint>, purpose: ContentPurpose)
    ensures QtHints(hints + {AutoCorrection, TitleCase}, purpose) == QtHints(hints, purpose)
    ensures purpose in {Name, Password, Terminal, Alpha} ==> QtHints(hints, purpose) == QtHints(hints, Normal)
  {
    var more := hints + {AutoCorrection, TitleCase};
    assert forall h :: h != AutoCorrection && h != TitleCase ==> (h in more <==> h in hints);
    assert ContentHintFlags(more) == ContentHintFlags(hints);
  }

  /** The position of a Qt flag's bit in Qt::InputMethodHints. */
  function BitIndex(f: QtHint): bv5
  {
    match f
    case ImhHiddenText => 0
    case ImhSensitiveData => 1
    case ImhNoAutoUppercase => 2
    case ImhPreferNumbers => 3
    case ImhPreferUppercase => 4
    case ImhPreferLowercase => 5
    case ImhNoPredictiveText => 6
    case ImhDate => 7
    case ImhTime => 8
    case ImhPreferLatin => 9
    case ImhMultiLine => 10
    case ImhDigitsOnly => 16
    case ImhFormattedNumbersOnly => 17
    case ImhUppercaseOnly => 18
    case ImhLowercaseOnly => 19
    case ImhDialableCharactersOnly => 20
    case ImhEmailCharactersOnly => 21
    case ImhUrlCharactersOnly => 22
    case ImhLatinOnly => 23
  }

  /** The value of a Qt flag in Qt::InputMethodHints: a single bit. */
  function HintBit(f: QtHint): bv32
  {
    (1 as bv32) << BitIndex(f)
  }

  /** The values are those of Qt's enumeration. */
  lemma HintBitIsQtValue(f: QtHint)
    ensures HintBit(f) == match f
      case ImhHiddenText => 0x1
      case ImhSensitiveData => 0x2
      case ImhNoAutoUppercase => 0x4
      case ImhPreferNumbers => 0x8
      case ImhPreferUppercase => 0x10
      case ImhPreferLowercase => 0x20
      case ImhNoPredictiveText => 0x40
      case ImhDate => 0x80
      case ImhTime => 0x100
      case ImhPreferLatin => 0x200
      case ImhMultiLine => 0x400
      case ImhDigitsOnly => 0x1_0000
      case ImhFormattedNumbersOnly => 0x2_0000
      case ImhUppercaseOnly => 0x4_0000
      case ImhLowercaseOnly => 0x8_0000
      case ImhDialableCharactersOnly => 0x10_0000
      case ImhEmailCharactersOnly => 0x20_0000
      case ImhUrlCharactersOnly => 0x40_0000
      case ImhLatinOnly => 0x80_0000
  {
  }

  /** Every Qt flag the model knows, in the order of their bits. */
  const AllQtHints: seq<QtHint> := [
    ImhHiddenText, ImhSensitiveData, ImhNoAutoUppercase, ImhPreferNumbers,
    ImhPreferUppercase, ImhPreferLowercase, ImhNoPredictiveText, ImhDate, ImhTime,
    ImhPreferLatin, ImhMultiLine,
    ImhDigitsOnly, ImhFormattedNumbersOnly, ImhUppercaseOnly, ImhLowercaseOnly,
    ImhDialableCharactersOnly, ImhEmailCharactersOnly, ImhUrlCharactersOnly, ImhLatinOnly]

  lemma AllQtHintsIsComplete(f: QtHint)
    ensures f in AllQtHints
  {
  }

  /** Two single bits overlap exactly when they are at the same position. */
  lemma ShiftsOverlap(i: bv5, j: bv5)
    ensures ((1 as bv32) << i) & ((1 as bv32) << j) != 0 <==> i == j
  {
  }

  /** Distinct flags have disjoint bits, and no flag's bit is zero. */
  lemma DistinctBits(a: QtHint, b: QtHint)
    ensures a == b ==> HintBit(a) & HintBit(b) == HintBit(a) != 0
    ensures a != b ==> HintBit(a) & HintBit(b) == 0
  {
    ShiftsOverlap(BitIndex(a), BitIndex(b));
  }

  /** The bits of those flags of `fs` that are in `h`, or-ed together. */
  function MaskOf(fs: seq<QtHint>, h: set<QtHint>): bv32
  {
    if fs == [] then 0
    else (if fs[0] in h then HintBit(fs[0]) else 0) | MaskOf(fs[1..], h)
  }

  /** `int(hints)`: the flags or-ed together. */
  function Mask(h: set<QtHint>): bv32
  {
    MaskOf(AllQtHints, h)
  }

  /** The or of two masks has a bit set exactly when one of them does. */
  lemma OrHasBit(x: bv32, y: bv32, b: bv32)
    ensures (x | y) & b != 0 <==> x & b != 0 || y & b != 0
  {
    assert (x | y) & b == (x & b) | (y & b);
  }

  /** A flag's bit is set in the or of a list exactly when the flag is listed and present. */
  lemma {:induction false} MaskOfBit(fs: seq<QtHint>, h: set<QtHint>, f: QtHint)
    ensures MaskOf(fs, h) & HintBit(f) != 0 <==> f in fs && f in h
  {
    if fs != [] {
      MaskOfBit(fs[1..], h, f);
      DistinctBits(fs[0], f);
      OrHasBit(if fs[0] in h then HintBit(fs[0]) else 0, MaskOf(fs[1..], h), HintBit(f));
    }
  }

  /** Each flag owns one bit, so the mask has a flag's bit set exactly when the flag is in the set. */
  lemma MaskBit(h: set<QtHint>, f: QtHint)
    ensures Mask(h) & HintBit(f) != 0 <==> f in h
  {
    MaskOfBit(AllQtHints, h, f);
    AllQtHintsIsComplete(f);
  }

  /** The flags whose bit is set in a mask. */
  function Decode(m: bv32): set<QtHint>
  {
    set f | f in AllQtHints && m & HintBit(f) != 0
  }

  /** A flag is decoded from a mask exactly when its bit is set there. */
  lemma InDecode(m: bv32, f: QtHint)
    ensures f in Decode(m) <==> m & HintBit(f) != 0
  {
    AllQtHintsIsComplete(f);
  }

  /** Decoding the mask gives the flags back. */
  lemma DecodeMask(h: set<QtHint>)
    ensures Decode(Mask(h)) == h
  {
    forall f
      ensures f in Decode(Mask(h)) <==> f in h
    {
      MaskBit(h, f);
      InDecode(Mask(h), f);
    }
  }

  /** Encoding what a mask decodes to keeps every flag's bit as it was. */
  lemma MaskDecode(m: bv32, f: QtHint)
    ensures Mask(Decode(m)) & HintBit(f) == m & HintBit(f)
  {
    MaskBit(Decode(m), f);
    InDecode(m, f);
    DistinctBits(f, f);
    SingleBit(m, f);
    SingleBit(Mask(Decode(m)), f);
  }

  /** A flag's bit in any mask is either all there or not at all. */
  lemma SingleBit(m: bv32, f: QtHint)
    ensures m & HintBit(f) == 0 || m & HintBit(f) == HintBit(f)
  {
  }

  // ---------------------------------------------------------------------------------------
  // Input method queries
  // ---------------------------------------------------------------------------------------

  /** Qt::InputMethodQuery flags. */
  datatype Query =
    | ImEnabled | ImCursorRectangle | ImFont | ImCursorPosition | ImSurroundingText
    | ImCurrentSelection | ImMaximumTextLength | ImAnchorPosition | ImHints
    | ImPreferredLanguage | ImPlatformData | ImAbsolutePosition | ImTextBeforeCursor
    | ImTextAfterCursor

  datatype Value = BoolValue(b: bool) | IntValue(i: int) | StringValue(s: string)

  /** The answered query event: the values set, whether it was accepted, and what event()
      returned. */
  datatype QueryReply = QueryReply(values: map<Query, Value>, accepted: bool, handled: bool)

  /** The queries the keyboard answers; the others are left unset. */
  const AnsweredQueries: set<Query> := {ImEnabled, ImCursorPosition, ImSurroundingText, ImHints}

  /** The text input queries are answered about: the focused one, but only when the keyboard is
      enabled and a Wayland server exists. */
  function QueriedInput(k: Keyboard, focused: Option<TextInput>): Option<TextInput>
  {
    if k.waylandServer && k.enabled then focused else None
  }

  function HintsValue(ti: Option<TextInput>): Value
  {
    if ti.Some? && ti.value.enabled then IntValue(Mask(QtHints(ti.value.hints, ti.value.purpose)) as int)
    else IntValue(0)
  }

  /** The query event handler: each asked query among ImEnabled, ImCursorPosition,
      ImSurroundingText and ImHints gets a value, the event is accepted, and it counts as
      handled. The cursor position is always 0 and the surrounding text always empty. */
  function InputMethodQuery(k: Keyboard, queries: set<Query>, focused: Option<TextInput>): (r: QueryReply)
    ensures r.accepted && r.handled
    ensures r.values.Keys == queries * AnsweredQueries
    ensures ImEnabled in queries ==>
              r.values[ImEnabled] == BoolValue(MaySend(k, focused))
    ensures ImCursorPosition in queries ==> r.values[ImCursorPosition] == IntValue(0)
    ensures ImSurroundingText in queries ==> r.values[ImSurroundingText] == StringValue([])
    ensures ImHints in queries ==> r.values[ImHints].IntValue?
    ensures ImHints in queries && !MaySend(k, focused) ==> r.values[ImHints] == IntValue(0)
  {
    var ti := QueriedInput(k, focused);
    var v := map[];
    var v := if ImEnabled in queries then v[ImEnabled := BoolValue(ti.Some? && ti.value.enabled)] else v;
    var v := if ImCursorPosition in queries then v[ImCursorPosition := IntValue(0)] else v;
    var v := if ImSurroundingText in queries then v[ImSurroundingText := StringValue([])] else v;
    var v := if ImHints in queries then v[ImHints := HintsValue(ti)] else v;
    QueryReply(v, true, true)
  }

  /** The hints answered for an enabled focused text input decode to exactly the flags whose
      origin holds. */
  lemma QueriedHintsDecode(k: Keyboard, queries: set<Query>, ti: TextInput, f: QtHint)
    requires ImHints in queries && MaySend(k, Some(ti))
    ensures var v := InputMethodQuery(k, queries, Some(ti)).values[ImHints];
            v.IntValue? && 0 <= v.i < 0x1_0000_0000
            && (f in Decode(v.i as bv32) <==> Origin(f, ti.hints, ti.purpose))
  {
    var m := Mask(QtHints(ti.hints, ti.purpose));
    assert InputMethodQuery(k, queries, Some(ti)).values[ImHints] == IntValue(m as int);
    MaskSurvivesInt(m);
    DecodeMask(QtHints(ti.hints, ti.purpose));
    QtHintsMatchOrigin(ti.hints, ti.purpose, f);
  }

  /** Passing a mask through `int` loses nothing. */
  lemma MaskSurvivesInt(m: bv32)
    ensures 0 <= m as int < 0x1_0000_0000 && (m as int) as bv32 == m
  {
  }

  // ---------------------------------------------------------------------------------------
  // Focus changes
  // ---------------------------------------------------------------------------------------

  /** What the seat reports after a focus change: no focused text input, or a focused text input
      whose surface belongs to a known client (None when the compositor finds no client). */
  datatype Focus = NoTextInput | TextInputFocus(client: Option<ClientId>)

  /** The focusedTextInputChanged handler, reduced to what the keyboard keeps. The input method
      is reset first. With a text input focused, the tracked client is swapped for the new one
      when they differ, clearing the old one's keyboard geometry, and the panel state is
      updated; without one, the tracked client stays. All queries are refreshed last. */
  function FocusedTextInputChanged(k: Keyboard, focus: Focus): (r: Step)
    ensures r.keyboard.(trackedClient := k.trackedClient) == k
    ensures focus.NoTextInput? ==> r.keyboard == k && r.trace == [InputMethodReset, QueryAllUpdated]
    ensures focus.TextInputFocus? ==> r.keyboard.trackedClient == focus.client
    ensures |r.trace| >= 2 && r.trace[0] == InputMethodReset && r.trace[|r.trace| - 1] == QueryAllUpdated
  {
    match focus
    case NoTextInput => Step(k, [InputMethodReset, QueryAllUpdated])
    case TextInputFocus(newClient) =>
      var swap :=
        if newClient != k.trackedClient then
          Step(k.(trackedClient := newClient),
               if k.trackedClient.Some? then [KeyboardGeometryCleared(k.trackedClient.value)] else [])
        else Step(k, []);
      Step(swap.keyboard, [InputMethodReset] + swap.trace + [InputPanelStateUpdated, QueryAllUpdated])
  }

  /** The swap clears a keyboard geometry exactly when a client was tracked and the focus moved to
      a different one (focus moving between subsurfaces of one client clears nothing), and then
      only the previously tracked client's, once. */
  lemma FocusChangeClearsOnlyOldClient(k: Keyboard, focus: Focus, c: ClientId)
    ensures var t := FocusedTextInputChanged(k, focus).trace;
            KeyboardGeometryCleared(c) in t <==>
              focus.TextInputFocus? && k.trackedClient == Some(c) && focus.client != Some(c)
    ensures var t := FocusedTextInputChanged(k, focus).trace;
            forall i, j :: 0 <= i < j < |t| && t[i].KeyboardGeometryCleared? ==> !t[j].KeyboardGeometryCleared?
  {
  }

  /** A second report of the same focus changes nothing and clears nothing. */
  lemma RefocusIsQuiet(k: Keyboard, focus: Focus)
    ensures var once := FocusedTextInputChanged(k, focus);
            var twice := FocusedTextInputChanged(once.keyboard, focus);
            && twice.keyboard == once.keyboard
            && forall c :: KeyboardGeometryCleared(c) !in twice.trace
  {
  }
}

=== FILE: wrappers.dfy ===
/** Optional values, standing in for the nullable pointers of the modelled code. */
module Wrappers {

  datatype Option<+T> = None | Some(value: T) {

    /** Returns the wrapped value, or `default` when there is none. */
    function GetOr(default: T): (r: T)
      ensures Some? ==> r == value
      ensures None? ==> r == default
    {
      match this
      case Some(v) => v
      case None => default
    }
  }
}

=== FILE: xwayland.dfy ===
/**
 * The Xwayland lifecycle supervisor (xwl/xwayland.cpp).
 *
 * The supervisor and the X11 members of the compositor application it drives
 * are one immutable record; every slot of the source becomes a pure function
 * from a record to the next record and the trace of what it emitted or asked
 * of the outside world. The OS and xcb calls are replaced by their outcomes,
 * passed in as parameters.
 */
module Xwayland {
  import opened Wrappers
  import DataBridge

  /** QProcess::ProcessState. */
  datatype ProcessState = NotRunning | Starting | Running

  /** QProcess::ProcessError. */
  datatype ProcessError = FailedToStart | Crashed | Timedout | WriteError | ReadError | UnknownError

  /** A command-line argument or environment value: literal text or a descriptor number. */
  datatype Arg = Lit(text: string) | Fd(fd: int)

  /** How the Xwayland child is launched. */
  datatype LaunchSpec = LaunchSpec(program: string, arguments: seq<Arg>, environment: map<string, Arg>)

  datatype Process = Process(state: ProcessState, spec: LaunchSpec)

  /** The default screen of an X11 connection, reduced to its root window. */
  datatype Screen = Screen(root: nat)

  /** An open xcb connection, identified by the descriptor it was opened on. */
  datatype Connection = Connection(fd: int)

  /** XCB_WINDOW_NONE. */
  const WindowNone: nat := 0

  /** The X11 members of the compositor application that the supervisor sets and clears. */
  datatype X11App = X11App(
    connection: Option<Connection>,
    defaultScreen: Option<Screen>,
    screenNumber: int,
    rootWindow: nat,
    atomsCreated: bool,
    eventFilterInstalled: bool,
    startupDisplay: Option<string>)

  datatype Supervisor = Supervisor(
    process: Option<Process>,
    dataBridge: Option<DataBridge.Bridge>,
    /** What DataBridge::self() answers. */
    bridgeSelf: Option<DataBridge.Bridge>,
    notifierInstalled: bool,
    xcbConnectionFd: int,
    displayFd: int,
    /** The DISPLAY variable of the compositor's own environment. */
    display: Option<string>,
    app: X11App)

  /** Everything observable the supervisor emits or asks of its collaborators, in order. */
  datatype Event =
    | CriticalError(code: int)
    | Exit(code: int)
    | Launched(spec: LaunchSpec)
    | PipeWriteEndClosed(fd: int)
    | DisplayPipeClosed(fd: int)
    | AtomsCreated
    | EventFilterInstalled
    | NotifierInstalled
    | NotifierUninstalled
    | AboutToBeDestroyed
    | InputFocusReset
    | AtomsDestroyed
    | EventFilterRemoved
    | Disconnected
      /** x11ConnectionChanged, with whether a connection is present when it fires. */
    | ConnectionChanged(connected: bool)
    | WmSelectionClaimed(root: nat)
    | BridgeDropped
    | Started
    | Synced
    | Terminate
    | ProcessDropped
    | WaylandConnectionDestroyed
    | Dispatched(e: DataBridge.XEvent)
    | Flushed

  datatype Step = Step(state: Supervisor, trace: seq<Event>)

  /** The two descriptors returned by pipe() or socketpair(). */
  datatype FdPair = FdPair(first: int, second: int)

  /** The outcomes of the OS calls `start` makes, in the order it makes them. */
  datatype StartEnv = StartEnv(
    pipe: Option<FdPair>,
    socketPair: Option<FdPair>,
    xcbDup: int,
    waylandSocket: int,
    waylandDup: int)

  /** What the data bridge constructor gets from the Wayland server: the internal data device,
      the data devices announced while it dispatches, the internal client, and the channels. */
  datatype BridgeSetup = BridgeSetup(
    device: DataBridge.DataDevice,
    announced: seq<DataBridge.DeviceIface>,
    internal: DataBridge.ClientId,
    channels: DataBridge.Channels)

  /** A supervisor before anything was started (xwl/xwayland.h is not part of this model: the
      descriptors are taken to start at -1). */
  function Initial(): (s: Supervisor)
    ensures s.process.None? && s.dataBridge.None? && s.app.connection.None?
  {
    Supervisor(None, None, None, false, -1, -1, None,
               X11App(None, None, -1, WindowNone, false, false, None))
  }

  // ---------------------------------------------------------------------------------------------
  // readDisplay

  /** readDisplay: the line Xwayland wrote to the display pipe, prefixed with ':' and with its
      last byte removed. */
  function ReadDisplay(line: string): (d: string)
    ensures |d| == |line|
    ensures |line| > 0 ==> d[0] == ':' && d[1..] == line[..|line| - 1]
    ensures line == [] ==> d == []
  {
    var prefixed := ":" + line;
    prefixed[..|prefixed| - 1]
  }

  /** The handshake: a display number followed by a newline becomes ":" and that number. */
  lemma ReadDisplayStripsNewline(number: string)
    ensures ReadDisplay(number + "\n") == ":" + number
  {
    var d := ReadDisplay(number + "\n");
    assert d[1..] == number;
  }

  lemma ReadDisplayOfOne()
    ensures ReadDisplay("1\n") == ":1"
  {
    ReadDisplayStripsNewline("1");
  }

  // ---------------------------------------------------------------------------------------------
  // start

  /** The launch of the Xwayland process once every descriptor is in hand. */
  function LaunchSpecFor(displayWrite: int, wmFd: int, waylandFd: int): LaunchSpec
  {
    LaunchSpec("Xwayland",
               [Lit("-displayfd"), Fd(displayWrite), Lit("-rootless"), Lit("-wm"), Fd(wmFd)],
               map["WAYLAND_SOCKET" := Fd(waylandFd), "EGL_PLATFORM" := Lit("DRM")])
  }

  /** Every OS call of `start` succeeded. */
  predicate StartSucceeds(env: StartEnv)
  {
    env.pipe.Some? && env.socketPair.Some? && env.xcbDup >= 0 && env.waylandSocket != -1 && env.waylandDup >= 0
  }

  /** start: creates the display pipe and the X11 socket pair, duplicates one end of the pair and
      the Wayland socket, and launches Xwayland. Any failure emits criticalError and keeps nothing;
      a failed dup reports 20, every other failure 1. */
  function Start(s: Supervisor, env: StartEnv): (r: Step)
    ensures !StartSucceeds(env) ==> r.state == s && |r.trace| == 1 && r.trace[0].CriticalError?
    ensures r.trace == [CriticalError(20)] <==>
              env.pipe.Some? && env.socketPair.Some?
              && (env.xcbDup < 0 || (env.waylandSocket != -1 && env.waylandDup < 0))
    ensures r.trace == [CriticalError(1)] <==>
              env.pipe.None? || env.socketPair.None? || (env.xcbDup >= 0 && env.waylandSocket == -1)
    ensures StartSucceeds(env) ==>
              && r.state.process.Some?
              && r.state.process.value.state == Starting
              && r.trace == [Launched(r.state.process.value.spec), PipeWriteEndClosed(env.pipe.value.second)]
              && r.state.process.value.spec == LaunchSpecFor(env.pipe.value.second, env.xcbDup, env.waylandDup)
              && r.state.process.value.spec.program == "Xwayland"
              && r.state.process.value.spec.arguments
                   == [Lit("-displayfd"), Fd(env.pipe.value.second), Lit("-rootless"), Lit("-wm"), Fd(env.xcbDup)]
              && r.state.process.value.spec.environment
                   == map["WAYLAND_SOCKET" := Fd(env.waylandDup), "EGL_PLATFORM" := Lit("DRM")]
              && r.state.xcbConnectionFd == env.socketPair.value.first
              && r.state.displayFd == env.pipe.value.first
              && r.state.(process := s.process, xcbConnectionFd := s.xcbConnectionFd, displayFd := s.displayFd) == s
  {
    if env.pipe.None? then Step(s, [CriticalError(1)])
    else if env.socketPair.None? then Step(s, [CriticalError(1)])
    else if env.xcbDup < 0 then Step(s, [CriticalError(20)])
    else if env.waylandSocket == -1 then Step(s, [CriticalError(1)])
    else if env.waylandDup < 0 then Step(s, [CriticalError(20)])
    else
      var spec := LaunchSpecFor(env.pipe.value.second, env.xcbDup, env.waylandDup);
      Step(s.(xcbConnectionFd := env.socketPair.value.first,
              displayFd := env.pipe.value.first,
              process := Some(Process(Starting, spec))),
           [Launched(spec), PipeWriteEndClosed(env.pipe.value.second)])
  }

  // ---------------------------------------------------------------------------------------------
  // createX11Connection / destroyX11Connection

  /** The events of tearing an X11 connection down. */
  predicate IsConnectionTeardown(e: Event)
  {
    || e.AboutToBeDestroyed? || e.InputFocusReset? || e.AtomsDestroyed? || e.EventFilterRemoved?
    || e.Disconnected? || e == ConnectionChanged(false)
  }

  /** createX11Connection: `screen` is the default screen of the connection xcb opened on the
      prepared descriptor, or None when xcb_connect_to_fd returned null. */
  function CreateX11Connection(s: Supervisor, screen: Option<Screen>): (r: Step)
    ensures screen.None? ==> r == Step(s, [])
    ensures screen.Some? ==>
              && r.state.app.connection == Some(Connection(s.xcbConnectionFd))
              && r.state.app.screenNumber == 0
              && r.state.app.rootWindow == screen.value.root
              && r.state.app.defaultScreen == screen
              && r.state.app.atomsCreated && r.state.app.eventFilterInstalled
              && r.state.notifierInstalled
              && r.state.(app := s.app, notifierInstalled := s.notifierInstalled) == s
              && r.state.app.startupDisplay == s.app.startupDisplay
              // every consumer sees the finished connection: the signal comes last
              && |r.trace| > 0
              && r.trace[|r.trace| - 1] == ConnectionChanged(true)
              && ConnectionChanged(true) !in r.trace[..|r.trace| - 1]
  {
    if screen.None? then Step(s, [])
    else
      var app := s.app.(connection := Some(Connection(s.xcbConnectionFd)),
                        defaultScreen := screen,
                        screenNumber := 0,
                        rootWindow := screen.value.root,
                        atomsCreated := true,
                        eventFilterInstalled := true);
      Step(s.(app := app, notifierInstalled := true),
           [AtomsCreated, EventFilterInstalled, NotifierInstalled, ConnectionChanged(true)])
  }

  /** destroyX11Connection: nothing without a connection; otherwise aboutToBeDestroyed first,
      connectionChanged last, and every connection member reset in between. */
  function DestroyX11Connection(s: Supervisor): (r: Step)
    ensures s.app.connection.None? ==> r == Step(s, [])
    ensures s.app.connection.Some? ==>
              && r.state.app.connection.None?
              && r.state.app.defaultScreen.None?
              && r.state.app.screenNumber == -1
              && r.state.app.rootWindow == WindowNone
              && r.state.xcbConnectionFd == -1
              && !r.state.app.atomsCreated && !r.state.app.eventFilterInstalled
              && r.state.app.startupDisplay == s.app.startupDisplay
              && r.state.(app := s.app, xcbConnectionFd := s.xcbConnectionFd) == s
              && |r.trace| >= 2
              && r.trace[0] == AboutToBeDestroyed
              && r.trace[|r.trace| - 1] == ConnectionChanged(false)
  {
    if s.app.connection.None? then Step(s, [])
    else
      var app := s.app.(connection := None,
                        defaultScreen := None,
                        screenNumber := -1,
                        rootWindow := WindowNone,
                        atomsCreated := false,
                        eventFilterInstalled := false);
      Step(s.(app := app, xcbConnectionFd := -1),
           [AboutToBeDestroyed, InputFocusReset, AtomsDestroyed, EventFilterRemoved, Disconnected,
            ConnectionChanged(false)])
  }

  /** destroyX11Connection emits only teardown events, and aboutToBeDestroyed and the closing
      connectionChanged once each. */
  lemma DestroyTraceIsTeardown(s: Supervisor)
    ensures var t := DestroyX11Connection(s).trace;
            && (forall i :: 0 <= i < |t| ==> IsConnectionTeardown(t[i]))
            && (|t| > 0 ==> AboutToBeDestroyed !in t[1..] && ConnectionChanged(false) !in t[..|t| - 1])
  {
  }

  // ---------------------------------------------------------------------------------------------
  // stop

  /** The phase of `stop` an event belongs to; `stop` emits its events in non-decreasing phase. */
  function StopPhase(e: Event): nat
  {
    match e
    case NotifierUninstalled => 0
    case BridgeDropped => 1
    case Terminate => 3
    case ProcessDropped => 4
    case WaylandConnectionDestroyed => 5
    case _ => 2
  }

  ghost predicate PhaseOrdered(t: seq<Event>)
  {
    forall i, j :: 0 <= i < j < |t| ==> StopPhase(t[i]) <= StopPhase(t[j])
  }

  /** stop: nothing without a process. Otherwise, in this order: uninstall the socket notifier,
      drop the data bridge, destroy the X11 connection, terminate the process if it still runs,
      drop the process, and destroy Xwayland's Wayland connection last. */
  function Stop(s: Supervisor): (r: Step)
    ensures s.process.None? ==> r == Step(s, [])
    ensures s.process.Some? ==>
              && r.state.process.None?
              && r.state.dataBridge.None?
              && r.state.bridgeSelf.None?
              && !r.state.notifierInstalled
              && r.state.app.connection.None?
              && r.state.display == s.display
              && r.state.displayFd == s.displayFd
              && |r.trace| >= 3
              && r.trace[0] == NotifierUninstalled
              && r.trace[|r.trace| - 2] == ProcessDropped
              && r.trace[|r.trace| - 1] == WaylandConnectionDestroyed
  {
    if s.process.None? then Step(s, [])
    else
      var s1 := s.(notifierInstalled := false);
      var dropBridge := if s.dataBridge.Some? then [BridgeDropped] else [];
      var s2 := s1.(dataBridge := None, bridgeSelf := None);
      var x := DestroyX11Connection(s2);
      var terminate := if s.process.value.state != NotRunning then [Terminate] else [];
      var s3 := x.state.(process := None);
      var head := [NotifierUninstalled] + dropBridge;
      var tail := terminate + [ProcessDropped, WaylandConnectionDestroyed];
      Step(s3, head + x.trace + tail)
  }

  /** stop tears down in a fixed order: notifier, bridge, X11 connection, process termination,
      process, and Xwayland's Wayland connection; no event of a later step precedes one of an
      earlier step. */
  lemma StopIsPhaseOrdered(s: Supervisor)
    ensures PhaseOrdered(Stop(s).trace)
  {
    if s.process.Some? {
      var s2 := s.(notifierInstalled := false, dataBridge := None, bridgeSelf := None);
      DestroyTraceIsTeardown(s2);
      StopTraceShape(s);
      PhasesOfStop(if s.dataBridge.Some? then [BridgeDropped] else [],
                   DestroyX11Connection(s2).trace,
                   if s.process.value.state != NotRunning then [Terminate] else []);
    }
  }

  lemma PhasesOfStop(dropBridge: seq<Event>, teardown: seq<Event>, terminate: seq<Event>)
    requires dropBridge == [] || dropBridge == [BridgeDropped]
    requires forall i :: 0 <= i < |teardown| ==> IsConnectionTeardown(teardown[i])
    requires terminate == [] || terminate == [Terminate]
    ensures PhaseOrdered(([NotifierUninstalled] + dropBridge) + teardown + (terminate + [ProcessDropped, WaylandConnectionDestroyed]))
  {
    var t := ([NotifierUninstalled] + dropBridge) + teardown + (terminate + [ProcessDropped, WaylandConnectionDestroyed]);
    var a := 1 + |dropBridge|;
    var b := a + |teardown|;
    var c := b + |terminate|;
    forall k | 0 <= k < |t|
      ensures StopPhase(t[k]) == if k == 0 then 0 else if k < a then 1 else if k < b then 2
                                 else if k < c then 3 else if k == c then 4 else 5
    {
      if a <= k < b {
        assert t[k] == teardown[k - a];
      }
    }
  }

  /** Which of the optional steps of stop happen: the bridge is dropped when there is one, the
      connection torn down when there is one, and the process terminated when it still runs. */
  lemma StopSteps(s: Supervisor)
    requires s.process.Some?
    ensures BridgeDropped in Stop(s).trace <==> s.dataBridge.Some?
    ensures Terminate in Stop(s).trace <==> s.process.value.state != NotRunning
    ensures AboutToBeDestroyed in Stop(s).trace <==> s.app.connection.Some?
    ensures ConnectionChanged(false) in Stop(s).trace <==> s.app.connection.Some?
  {
    var s2 := s.(notifierInstalled := false, dataBridge := None, bridgeSelf := None);
    StopTraceShape(s);
    DestroyTraceIsTeardown(s2);
    StepsOfShape(if s.dataBridge.Some? then [BridgeDropped] else [],
                 DestroyX11Connection(s2).trace,
                 if s.process.value.state != NotRunning then [Terminate] else [],
                 s.app.connection.Some?);
  }

  /** The trace of stop, piece by piece. */
  lemma StopTraceShape(s: Supervisor)
    requires s.process.Some?
    ensures Stop(s).trace ==
              ([NotifierUninstalled] + (if s.dataBridge.Some? then [BridgeDropped] else []))
              + DestroyX11Connection(s.(notifierInstalled := false, dataBridge := None, bridgeSelf := None)).trace
              + ((if s.process.value.state != NotRunning then [Terminate] else [])
                 + [ProcessDropped, WaylandConnectionDestroyed])
  {
  }

  lemma StepsOfShape(dropBridge: seq<Event>, teardown: seq<Event>, terminate: seq<Event>, connected: bool)
    requires dropBridge == [] || dropBridge == [BridgeDropped]
    requires terminate == [] || terminate == [Terminate]
    requires forall i :: 0 <= i < |teardown| ==> IsConnectionTeardown(teardown[i])
    requires connected ==> |teardown| > 0 && teardown[0] == AboutToBeDestroyed
                           && teardown[|teardown| - 1] == ConnectionChanged(false)
    requires !connected ==> teardown == []
    ensures var t := ([NotifierUninstalled] + dropBridge) + teardown + (terminate + [ProcessDropped, WaylandConnectionDestroyed]);
            && (BridgeDropped in t <==> dropBridge != [])
            && (Terminate in t <==> terminate != [])
            && (AboutToBeDestroyed in t <==> connected)
            && (ConnectionChanged(false) in t <==> connected)
  {
    assert BridgeDropped !in teardown && Terminate !in teardown;
  }

  /** stop is idempotent: a second call changes nothing and emits nothing. */
  lemma StopIsIdempotent(s: Supervisor)
    ensures Stop(Stop(s).state) == Step(Stop(s).state, [])
  {
  }

  // ---------------------------------------------------------------------------------------------
  // dispatchEvents

  /** Hands every pending X11 event to the native event filters, in arrival order, then flushes. */
  function Drain(pending: seq<DataBridge.XEvent>): (t: seq<Event>)
    ensures |t| == |pending| + 1
    ensures forall i :: 0 <= i < |pending| ==> t[i] == Dispatched(pending[i])
    ensures t[|pending|] == Flushed
  {
    if pending == [] then [Flushed]
    else [Dispatched(pending[0])] + Drain(pending[1..])
  }

  /** dispatchEvents: nothing without a connection; a connection in error is a dead Xwayland and
      is torn down with stop; otherwise every pending event is dispatched and the output flushed. */
  function DispatchEvents(s: Supervisor, connectionError: int, pending: seq<DataBridge.XEvent>): (r: Step)
    ensures s.app.connection.None? ==> r == Step(s, [])
    ensures s.app.connection.Some? && connectionError != 0 ==> r == Stop(s)
    ensures s.app.connection.Some? && connectionError == 0 ==>
              && r.state == s
              && |r.trace| == |pending| + 1
              && (forall i :: 0 <= i < |pending| ==> r.trace[i] == Dispatched(pending[i]))
              && r.trace[|pending|] == Flushed
  {
    if s.app.connection.None? then Step(s, [])
    else if connectionError != 0 then Stop(s)
    else Step(s, Drain(pending))
  }

  // ---------------------------------------------------------------------------------------------
  // process signals

  /** handleXwaylandFinished: whatever the exit code, everything X11 is torn down. */
  function HandleXwaylandFinished(s: Supervisor, exitCode: int): (r: Step)
    ensures s.process.Some? ==>
              && r.state.process.None? && r.state.dataBridge.None? && r.state.app.connection.None?
              && |r.trace| > 0 && r.trace[|r.trace| - 1] == WaylandConnectionDestroyed
    ensures s.process.None? ==> r == Step(s, [])
  {
    Stop(s)
  }

  /** handleXwaylandError: only a failure to start is critical (code 1); the rest only log. */
  function HandleXwaylandError(s: Supervisor, error: ProcessError): (r: Step)
    ensures r.state == s
    ensures error == FailedToStart <==> r.trace == [CriticalError(1)]
    ensures error != FailedToStart <==> r.trace == []
  {
    match error
    case FailedToStart => Step(s, [CriticalError(1)])
    case _ => Step(s, [])
  }

  // ---------------------------------------------------------------------------------------------
  // continueStartupWithX

  /** The bridge as its constructor leaves it, after the dispatch it triggers. */
  function NewBridge(setup: BridgeSetup): (b: DataBridge.Bridge)
    ensures DataBridge.Valid(b)
  {
    DataBridge.DeliverAll(DataBridge.Construct(setup.device), setup.announced, setup.internal, setup.channels)
  }

  /** continueStartupWithX: opens the X11 connection; without one the startup is abandoned with
      criticalError(1) and no bridge. Otherwise WM_S0 is claimed, the data bridge created, DISPLAY
      copied into the startup environment, `started` emitted and a sync issued. */
  function ContinueStartupWithX(s: Supervisor, screen: Option<Screen>, setup: BridgeSetup): (r: Step)
    ensures s.app.connection.None? && screen.None? ==> r == Step(s, [CriticalError(1)])
    ensures s.app.connection.Some? || screen.Some? ==>
              && r.state.app.connection.Some?
              && r.state.dataBridge == Some(NewBridge(setup))
              && r.state.bridgeSelf == r.state.dataBridge
              && r.state.app.startupDisplay == Some(s.display.GetOr(""))
              && Started in r.trace
              && CriticalError(1) !in r.trace
              && |r.trace| >= 2
              && r.trace[|r.trace| - 2] == Started
              && r.trace[|r.trace| - 1] == Synced
    ensures screen.Some? ==> ConnectionChanged(true) in r.trace
  {
    var c := CreateX11Connection(s, screen);
    var s1 := c.state;
    if s1.app.connection.None? then Step(s1, c.trace + [CriticalError(1)])
    else
      var bridge := NewBridge(setup);
      var s2 := s1.(dataBridge := Some(bridge), bridgeSelf := Some(bridge),
                    app := s1.app.(startupDisplay := Some(s1.display.GetOr(""))));
      Step(s2, c.trace + [WmSelectionClaimed(s1.app.rootWindow), Started, Synced])
  }

  /** handleXwaylandStarted, with the background read of the display pipe resolved: `pipeOpened`
      says whether the pipe could be opened (if not, the compositor exits with status 1) and
      `line` is the line read from it. DISPLAY is set, the pipe closed, and startup continues. */
  function HandleXwaylandStarted(s: Supervisor, pipeOpened: bool, line: string, screen: Option<Screen>, setup: BridgeSetup): (r: Step)
    ensures !pipeOpened ==> r == Step(s, [Exit(1)])
    ensures pipeOpened ==> r.state.display == Some(ReadDisplay(line))
    ensures pipeOpened ==> |r.trace| > 0 && r.trace[0] == DisplayPipeClosed(s.displayFd)
    ensures pipeOpened && (s.app.connection.Some? || screen.Some?) ==>
              r.state.app.startupDisplay == Some(ReadDisplay(line))
  {
    if !pipeOpened then Step(s, [Exit(1)])
    else
      var s1 := s.(display := Some(ReadDisplay(line)));
      var c := ContinueStartupWithX(s1, screen, setup);
      Step(c.state, [DisplayPipeClosed(s.displayFd)] + c.trace)
  }

  // ---------------------------------------------------------------------------------------------
  // dragMoveFilter

  /** dragMoveFilter: Wayland when there is no bridge, otherwise whatever the bridge answers. */
  function DragMoveFilter(s: Supervisor, target: nat, pos: DataBridge.Point): (r: DataBridge.DragEventReply)
    ensures s.dataBridge.None? ==> r == DataBridge.Wayland
    ensures s.dataBridge.Some? ==> r == DataBridge.DragMoveFilter(s.dataBridge.value, target, pos)
  {
    if s.dataBridge.None? then DataBridge.Wayland
    else DataBridge.DragMoveFilter(s.dataBridge.value, target, pos)
  }
}

=== FILE: xwayland_session.dfy ===
/**
 * Whole sessions of the Xwayland supervisor (xwl/xwayland.cpp): the slots of
 * the supervisor driven by the events that reach them, and what holds across
 * any sequence of them.
 */
module XwaylandSession {
  import opened Wrappers
  import DataBridge
  import opened Xwayland

  /** What can reach the supervisor: its own start/stop, a dispatch of the X11 socket, the
      three signals of the Xwayland process, and a data device announced by the Wayland server
      after the bridge was built (the server publishes devices asynchronously, so the internal
      one can arrive late). */
  datatype Op =
    | OpStart(env: StartEnv)
    | OpStop
    | OpDispatch(connectionError: int, pending: seq<DataBridge.XEvent>)
    | OpProcessStarted(pipeOpened: bool, line: string, screen: Option<Screen>, setup: BridgeSetup)
    | OpProcessFinished(exitCode: int)
    | OpProcessError(error: ProcessError)
    | OpDataDeviceCreated(iface: DataBridge.DeviceIface, internal: DataBridge.ClientId, channels: DataBridge.Channels)

  /** QProcess updates its own state before it signals. */
  function MarkProcess(s: Supervisor, st: ProcessState): (r: Supervisor)
    ensures r.process.Some? <==> s.process.Some?
    ensures r.(process := s.process) == s
  {
    if s.process.None? then s else s.(process := Some(s.process.value.(state := st)))
  }

  /** dataDeviceCreated reaching the live bridge: its handler stays connected until it adopts
      the internal device, so a late announcement is handled exactly like one at construction.
      Without a bridge nobody listens. Nothing is signalled. */
  function DeviceCreated(s: Supervisor, iface: DataBridge.DeviceIface, internal: DataBridge.ClientId, ch: DataBridge.Channels): (r: Step)
    ensures s.dataBridge.None? ==> r == Step(s, [])
    ensures s.dataBridge.Some? ==>
              && r.state.dataBridge == Some(DataBridge.OnDataDeviceCreated(s.dataBridge.value, iface, internal, ch))
              && r.state.bridgeSelf == r.state.dataBridge
    ensures r.trace == []
    ensures r.state.(dataBridge := s.dataBridge, bridgeSelf := s.bridgeSelf) == s
  {
    if s.dataBridge.None? then Step(s, [])
    else
      var b := DataBridge.OnDataDeviceCreated(s.dataBridge.value, iface, internal, ch);
      Step(s.(dataBridge := Some(b), bridgeSelf := Some(b)), [])
  }

  function Apply(s: Supervisor, op: Op): Step
  {
    match op
    case OpStart(env) => Start(s, env)
    case OpStop => Stop(s)
    case OpDispatch(err, pending) => DispatchEvents(s, err, pending)
    case OpProcessStarted(pipeOpened, line, screen, setup) =>
      HandleXwaylandStarted(MarkProcess(s, Running), pipeOpened, line, screen, setup)
    case OpProcessFinished(code) => HandleXwaylandFinished(MarkProcess(s, NotRunning), code)
    case OpProcessError(error) =>
      HandleXwaylandError(if error == FailedToStart then MarkProcess(s, NotRunning) else s, error)
    case OpDataDeviceCreated(iface, internal, ch) => DeviceCreated(s, iface, internal, ch)
  }

  /** The display-ready signal reaches the supervisor once per started process, before any
      connection exists. */
  predicate Guarded(s: Supervisor, op: Op)
  {
    op.OpProcessStarted? ==> s.process.Some? && s.app.connection.None?
  }

  /** Runs a sequence of operations, concatenating their traces. */
  function Run(s: Supervisor, ops: seq<Op>): Step
    decreases |ops|
  {
    if ops == [] then Step(s, [])
    else
      var first := Apply(s, ops[0]);
      var rest := Run(first.state, ops[1..]);
      Step(rest.state, first.trace + rest.trace)
  }

  ghost predicate GuardedRun(s: Supervisor, ops: seq<Op>)
    decreases |ops|
  {
    ops == [] || (Guarded(s, ops[0]) && GuardedRun(Apply(s, ops[0]).state, ops[1..]))
  }

  /** The supervisor's structural invariant: no X11 connection without an Xwayland process, no
      bridge without a connection, DataBridge::self() is the live bridge, and the socket notifier
      is installed only while a connection exists. */
  ghost predicate Inv(s: Supervisor)
  {
    && (s.app.connection.Some? ==> s.process.Some?)
    && (s.dataBridge.Some? ==> s.app.connection.Some?)
    && (s.dataBridge.Some? ==> DataBridge.Valid(s.dataBridge.value))
    && s.bridgeSelf == s.dataBridge
    && (s.notifierInstalled ==> s.app.connection.Some?)
  }

  lemma InitialIsValid()
    ensures Inv(Initial())
  {
  }

  lemma StepPreservesInv(s: Supervisor, op: Op)
    requires Inv(s) && Guarded(s, op)
    ensures Inv(Apply(s, op).state)
  {
  }

  // ---------------------------------------------------------------------------------------------
  // connection signals

  predicate IsSignal(e: Event)
  {
    e.AboutToBeDestroyed? || e.ConnectionChanged?
  }

  /** The connection lifecycle signals of a trace, in order. */
  function Signals(t: seq<Event>): seq<Event>
  {
    if t == [] then []
    else (if IsSignal(t[0]) then [t[0]] else []) + Signals(t[1..])
  }

  lemma {:induction false} SignalsAppend(a: seq<Event>, b: seq<Event>)
    ensures Signals(a + b) == Signals(a) + Signals(b)
    decreases |a|
  {
    if a == [] {
      assert a + b == b;
    } else {
      var head := if IsSignal(a[0]) then [a[0]] else [];
      assert (a + b)[0] == a[0];
      assert (a + b)[1..] == a[1..] + b;
      assert Signals(a + b) == head + Signals(a[1..] + b);
      SignalsAppend(a[1..], b);
      assert Signals(a) == head + Signals(a[1..]);
    }
  }

  lemma {:induction false} SignalsOfQuiet(t: seq<Event>)
    requires forall i :: 0 <= i < |t| ==> !IsSignal(t[i])
    ensures Signals(t) == []
    decreases |t|
  {
    if t != [] {
      SignalsOfQuiet(t[1..]);
    }
  }

  /** Reads a signal sequence as the life of the connection, starting `connected` or not: each
      appearance is one connectionChanged, each disappearance aboutToBeDestroyed immediately
      followed by connectionChanged. The result is whether it ends connected, or None when the
      sequence is out of order. */
  function Replay(sig: seq<Event>, connected: bool): Option<bool>
    decreases |sig|
  {
    if sig == [] then Some(connected)
    else if connected && |sig| >= 2 && sig[0] == AboutToBeDestroyed && sig[1] == ConnectionChanged(false) then
      Replay(sig[2..], false)
    else if !connected && sig[0] == ConnectionChanged(true) then
      Replay(sig[1..], true)
    else None
  }

  lemma {:induction false} ReplayAppend(a: seq<Event>, b: seq<Event>, connected: bool)
    requires Replay(a, connected).Some?
    ensures Replay(a + b, connected) == Replay(b, Replay(a, connected).value)
    decreases |a|
  {
    if a == [] {
      assert a + b == b;
    } else if connected && |a| >= 2 && a[0] == AboutToBeDestroyed && a[1] == ConnectionChanged(false) {
      assert (a + b)[2..] == a[2..] + b;
      ReplayAppend(a[2..], b, false);
    } else {
      assert (a + b)[1..] == a[1..] + b;
      ReplayAppend(a[1..], b, true);
    }
  }

  /** The two signal stories one step can tell: an opening, and a teardown. */
  lemma ReplayOneStep()
    ensures Replay([ConnectionChanged(true)], false) == Some(true)
    ensures Replay([AboutToBeDestroyed, ConnectionChanged(false)], true) == Some(false)
  {
    assert [ConnectionChanged(true)][1..] == [];
    assert [AboutToBeDestroyed, ConnectionChanged(false)][2..] == [];
  }

  function Connected(s: Supervisor): bool
  {
    s.app.connection.Some?
  }

  /** The signals one `stop` emits: the about-to-be-destroyed/changed pair exactly when it tears a
      connection down. */
  lemma StopSignals(s: Supervisor)
    ensures Signals(Stop(s).trace) ==
              if s.process.Some? && Connected(s) then [AboutToBeDestroyed, ConnectionChanged(false)] else []
  {
    if s.process.Some? {
      var s2 := s.(notifierInstalled := false, dataBridge := None, bridgeSelf := None);
      var middle := DestroyX11Connection(s2).trace;
      assert Signals(Stop(s).trace) == Signals(middle) by {
        var head := [NotifierUninstalled] + (if s.dataBridge.Some? then [BridgeDropped] else []);
        var tail := (if s.process.value.state != NotRunning then [Terminate] else [])
                    + [ProcessDropped, WaylandConnectionDestroyed];
        StopTraceShape(s);
        QuietAround(head, middle, tail);
      }
      DestroySignals(s2);
    }
  }

  lemma QuietAround(head: seq<Event>, middle: seq<Event>, tail: seq<Event>)
    requires forall i :: 0 <= i < |head| ==> !IsSignal(head[i])
    requires forall i :: 0 <= i < |tail| ==> !IsSignal(tail[i])
    ensures Signals(head + middle + tail) == Signals(middle)
  {
    SignalsOfQuiet(head);
    SignalsOfQuiet(tail);
    SignalsAppend(head, middle);
    SignalsAppend(head + middle, tail);
  }

  /** The signals destroyX11Connection emits: the pair exactly when there is a connection. */
  lemma DestroySignals(s: Supervisor)
    ensures Signals(DestroyX11Connection(s).trace) ==
              if Connected(s) then [AboutToBeDestroyed, ConnectionChanged(false)] else []
  {
    var t := DestroyX11Connection(s).trace;
    if Connected(s) {
      assert t == [AboutToBeDestroyed, InputFocusReset, AtomsDestroyed, EventFilterRemoved, Disconnected,
                   ConnectionChanged(false)];
      TeardownSignals(t);
    }
  }

  lemma TeardownSignals(t: seq<Event>)
    requires t == [AboutToBeDestroyed, InputFocusReset, AtomsDestroyed, EventFilterRemoved, Disconnected,
                   ConnectionChanged(false)]
    ensures Signals(t) == [AboutToBeDestroyed, ConnectionChanged(false)]
  {
    assert Signals(t[5..]) == [ConnectionChanged(false)] by {
      assert t[5..][1..] == [];
    }
    assert Signals(t[4..]) == [ConnectionChanged(false)] by {
      assert t[4..][1..] == t[5..];
    }
    assert Signals(t[3..]) == [ConnectionChanged(false)] by {
      assert t[3..][1..] == t[4..];
    }
    assert Signals(t[2..]) == [ConnectionChanged(false)] by {
      assert t[2..][1..] == t[3..];
    }
    assert Signals(t[1..]) == [ConnectionChanged(false)] by {
      assert t[1..][1..] == t[2..];
    }
  }

  lemma SignalsOne(e: Event)
    ensures Signals([e]) == if IsSignal(e) then [e] else []
  {
    assert [e][1..] == [];
  }

  /** The signals of the display-ready path: one connectionChanged exactly when a connection
      is opened. */
  lemma StartedSignals(s: Supervisor, pipeOpened: bool, line: string, screen: Option<Screen>, setup: BridgeSetup)
    requires !Connected(s)
    ensures Signals(HandleXwaylandStarted(s, pipeOpened, line, screen, setup).trace) ==
              if pipeOpened && screen.Some? then [ConnectionChanged(true)] else []
  {
    var t := HandleXwaylandStarted(s, pipeOpened, line, screen, setup).trace;
    if pipeOpened && screen.Some? {
      assert t == [DisplayPipeClosed(s.displayFd), AtomsCreated, EventFilterInstalled, NotifierInstalled,
                   ConnectionChanged(true), WmSelectionClaimed(screen.value.root), Started, Synced];
      OpeningSignals(t);
    } else {
      SignalsOfQuiet(t);
    }
  }

  lemma OpeningSignals(t: seq<Event>)
    requires |t| == 8 && t[4] == ConnectionChanged(true)
    requires forall i :: 0 <= i < |t| && i != 4 ==> !IsSignal(t[i])
    ensures Signals(t) == [ConnectionChanged(true)]
  {
    assert t == t[..4] + [t[4]] + t[5..];
    QuietAround(t[..4], [t[4]], t[5..]);
    SignalsOne(t[4]);
  }

  lemma StartSignals(s: Supervisor, env: StartEnv)
    ensures Signals(Start(s, env).trace) == []
  {
    var t := Start(s, env).trace;
    if StartSucceeds(env) {
      assert t == [t[0], t[1]] && !IsSignal(t[0]) && !IsSignal(t[1]);
    } else {
      assert t == [t[0]] && !IsSignal(t[0]);
    }
    SignalsOfQuiet(t);
  }

  lemma DispatchSignals(s: Supervisor, err: int, pending: seq<DataBridge.XEvent>)
    ensures Signals(DispatchEvents(s, err, pending).trace) ==
              if Connected(s) && err != 0 && s.process.Some? then [AboutToBeDestroyed, ConnectionChanged(false)] else []
  {
    if Connected(s) && err != 0 {
      StopSignals(s);
    } else {
      SignalsOfQuiet(DispatchEvents(s, err, pending).trace);
    }
  }

  lemma ErrorSignals(s: Supervisor, error: ProcessError)
    ensures Signals(HandleXwaylandError(s, error).trace) == []
  {
    SignalsOfQuiet(HandleXwaylandError(s, error).trace);
  }

  /** The signals one guarded operation emits agree with how it changes the connection. */
  lemma StepSignals(s: Supervisor, op: Op)
    requires Inv(s) && Guarded(s, op)
    ensures Replay(Signals(Apply(s, op).trace), Connected(s)) == Some(Connected(Apply(s, op).state))
  {
    if op.OpDataDeviceCreated? {
      assert Signals(Apply(s, op).trace) == [];
    } else if op.OpStart? || op.OpStop? || op.OpDispatch? {
      SupervisorStepSignals(s, op);
    } else {
      ProcessStepSignals(s, op);
    }
  }

  /** StepSignals for the operations the compositor itself calls. */
  lemma SupervisorStepSignals(s: Supervisor, op: Op)
    requires Inv(s) && (op.OpStart? || op.OpStop? || op.OpDispatch?)
    ensures Replay(Signals(Apply(s, op).trace), Connected(s)) == Some(Connected(Apply(s, op).state))
  {
    ReplayOneStep();
    match op
    case OpStart(env) =>
      StartSignals(s, env);
      assert Connected(Start(s, env).state) == Connected(s);
    case OpStop =>
      StopSignals(s);
      assert Connected(Stop(s).state) == (Connected(s) && s.process.None?);
    case OpDispatch(err, pending) =>
      DispatchSignals(s, err, pending);
      assert Connected(DispatchEvents(s, err, pending).state) == (Connected(s) && (err == 0 || s.process.None?));
  }

  /** StepSignals for the signals of the Xwayland process. */
  lemma ProcessStepSignals(s: Supervisor, op: Op)
    requires Inv(s) && Guarded(s, op) && (op.OpProcessStarted? || op.OpProcessFinished? || op.OpProcessError?)
    ensures Replay(Signals(Apply(s, op).trace), Connected(s)) == Some(Connected(Apply(s, op).state))
  {
    match op
    case OpProcessStarted(pipeOpened, line, screen, setup) =>
      StartedStep(s, pipeOpened, line, screen, setup);
    case OpProcessFinished(code) =>
      FinishedStep(s, code);
    case OpProcessError(error) =>
      ErrorSignals(if error == FailedToStart then MarkProcess(s, NotRunning) else s, error);
  }

  lemma FinishedStep(s: Supervisor, code: int)
    requires Connected(s) ==> s.process.Some?
    ensures var r := HandleXwaylandFinished(MarkProcess(s, NotRunning), code);
            Replay(Signals(r.trace), Connected(s)) == Some(Connected(r.state))
  {
    var m := MarkProcess(s, NotRunning);
    assert HandleXwaylandFinished(m, code) == Stop(m);
    StopSignals(m);
  }

  lemma StartedStep(s: Supervisor, pipeOpened: bool, line: string, screen: Option<Screen>, setup: BridgeSetup)
    requires !Connected(s)
    ensures var r := HandleXwaylandStarted(MarkProcess(s, Running), pipeOpened, line, screen, setup);
            Replay(Signals(r.trace), false) == Some(Connected(r.state))
  {
    var m := MarkProcess(s, Running);
    StartedSignals(m, pipeOpened, line, screen, setup);
    ReplayOneStep();
    assert Connected(HandleXwaylandStarted(m, pipeOpened, line, screen, setup).state) == (pipeOpened && screen.Some?);
  }

  /** Across any guarded run the invariant holds, and the connection signals tell the
      connection's story in order: connectionChanged on every appearance, aboutToBeDestroyed
      followed by connectionChanged on every disappearance, never anything else. */
  lemma {:induction false} RunKeepsInvAndSignalOrder(s: Supervisor, ops: seq<Op>)
    requires Inv(s) && GuardedRun(s, ops)
    ensures Inv(Run(s, ops).state)
    ensures Replay(Signals(Run(s, ops).trace), Connected(s)) == Some(Connected(Run(s, ops).state))
    decreases |ops|
  {
    if ops != [] {
      var first := Apply(s, ops[0]);
      StepPreservesInv(s, ops[0]);
      StepSignals(s, ops[0]);
      RunKeepsInvAndSignalOrder(first.state, ops[1..]);
      var rest := Run(first.state, ops[1..]);
      SignalsAppend(first.trace, rest.trace);
      ReplayAppend(Signals(first.trace), Signals(rest.trace), Connected(s));
    }
  }

  // ---------------------------------------------------------------------------------------------
  // scenarios

  /** Xwayland fails to spawn: criticalError(1), and neither a connection nor a bridge appears. */
  lemma SpawnFailureScenario(env: StartEnv)
    requires StartSucceeds(env)
    ensures var r := Run(Initial(), [OpStart(env), OpProcessError(FailedToStart)]);
            && CriticalError(1) in r.trace
            && r.state.app.connection.None? && r.state.dataBridge.None?
  {
    var ops := [OpStart(env), OpProcessError(FailedToStart)];
    var r1 := Apply(Initial(), ops[0]);
    var r2 := Apply(r1.state, ops[1]);
    assert ops[1..] == [ops[1]];
    assert Run(r1.state, ops[1..]) == Step(r2.state, r2.trace + []);
    assert Run(Initial(), ops) == Step(r2.state, r1.trace + r2.trace);
    assert r2.trace == [CriticalError(1)];
  }

  /** stop on a supervisor that never started anything, twice: no change and no signal. */
  lemma StopTwiceWithoutProcessScenario()
    ensures Run(Initial(), [OpStop, OpStop]) == Step(Initial(), [])
  {
    assert [OpStop, OpStop][1..] == [OpStop];
  }

  /** A crash after a successful session tears everything down, aboutToBeDestroyed first. */
  lemma CrashAfterSessionScenario(s: Supervisor)
    requires Inv(s) && s.process.Some? && Connected(s)
    ensures var r := Apply(s, OpProcessFinished(139));
            && r.state.process.None? && !Connected(r.state) && r.state.dataBridge.None?
            && Signals(r.trace) == [AboutToBeDestroyed, ConnectionChanged(false)]
  {
    var m := MarkProcess(s, NotRunning);
    assert Apply(s, OpProcessFinished(139)) == Stop(m);
    StopSignals(m);
  }

  /** dragMoveFilter answers Wayland before the X11 connection (and so the bridge) exists, and
      also while the bridge has not yet adopted the internal data device. */
  lemma DragBeforeConnection(s: Supervisor, target: nat, pos: DataBridge.Point)
    requires Inv(s)
    ensures s.app.connection.None? ==> DragMoveFilter(s, target, pos) == DataBridge.Wayland
    ensures s.dataBridge.Some? && s.dataBridge.value.dataDeviceIface.None? ==>
              DragMoveFilter(s, target, pos) == DataBridge.Wayland
  {
  }

  /** The internal data device announced after the bridge was built is still adopted: drags are
      then answered by the new dnd channel, and later announcements change nothing. */
  lemma LateInternalDeviceIsAdopted(s: Supervisor, iface: DataBridge.DeviceIface, ch: DataBridge.Channels,
                                    later: DataBridge.DeviceIface, laterCh: DataBridge.Channels,
                                    target: nat, pos: DataBridge.Point)
    requires Inv(s) && s.dataBridge.Some? && s.dataBridge.value.dataDeviceIface.None?
    ensures var r := Apply(s, OpDataDeviceCreated(iface, iface.client, ch)).state;
            && Inv(r)
            && r.dataBridge.value.dataDeviceIface == Some(iface)
            && DragMoveFilter(r, target, pos) == ch.dndDragMove(target, pos)
            && Apply(r, OpDataDeviceCreated(later, later.client, laterCh)) == Step(r, [])
  {
    StepPreservesInv(s, OpDataDeviceCreated(iface, iface.client, ch));
  }

  /** The display-ready signal is not tied to the process: if Xwayland dies while its display is
      being read, stop runs first and the late continueStartupWithX still reaches
      createX11Connection. The connect's answer is a parameter here; if it returns a screen, a
      connection opens that no process backs. A broken connection is then never torn down,
      because dispatchEvents hands it to stop, which returns at once without a process. */
  lemma LateDisplayReadyLeavesOrphanConnection(screen: Screen, setup: BridgeSetup, err: int, pending: seq<DataBridge.XEvent>)
    requires err != 0
    ensures var r := Apply(Initial(), OpProcessStarted(true, "", Some(screen), setup));
            && !Guarded(Initial(), OpProcessStarted(true, "", Some(screen), setup))
            && Connected(r.state) && r.state.process.None?
            && !Inv(r.state)
            && DispatchEvents(r.state, err, pending) == Step(r.state, [])
  {
  }
}
